=== FILE: README.md ===
# FUTURES calibration and STRDS column naming, modelled in Dafny

This project models two GRASS GIS add-on scripts as pure Dafny functions and
proves properties of the model.

**r.futures.calib** calibrates the patch-growing parameters of the FUTURES urban
growth simulation. The model covers:

- the patch analysis of the observed development change: filtering patches by a
  slightly lowered area threshold, for the whole region or per subregion;
- the patch-size file the simulation later reads: one sorted column, or one sorted
  column per subregion under a header, padded with blanks;
- the histogram distance between observed and simulated patch distributions;
- the enumeration of the parameter grid and the seed each trial runs with;
- the repeated trials of one combination, with all-or-nothing failure and the mean
  distances;
- the batch loop that writes the successful results in launch order;
- the final ranking, which normalises both error columns by their maxima, averages
  them and sorts by the combined error.

**v.what.strds** samples space-time raster datasets at vector points. The model
covers its naming rules:

- the day label of a sample (`printDay`);
- the name and SQL type of the attribute column each raster map is written to;
- the treatment of a blank `where` option.

The external GRASS modules are parameters of the model, not code in it:

- the simulation, clumping and geometry extraction;
- histogram binning;
- rounding areas to cell counts;
- reading raster map types.

Specifically:

- A `Simulator` maps a parameter combination and a seed to a failed run or to
  the two simulated histograms.
- A geometry extractor yields no features, or a list of (area, perimeter) records.
- `toCells` converts an area to a whole number of cells.
- `datatypeOf` gives a raster map's data type.

The modules follow the program's structure:

| module | file | what it models |
|---|---|---|
| `Options` | options.dfy | the `None` sentinel and fatal errors |
| `Seqs`, `Sorting`, `Reals` | seqs.dfy, sorting.dfy, reals.dfy | sums, maxima, flattening, a sort by key, small real-arithmetic facts |
| `Histogram` | histogram.dfy | `compare_histograms` |
| `Grid` | grid.dfy | the triple loop over parameters and the seed arithmetic |
| `Trial` | trial.dfy | `run_one_combination` |
| `Scheduler` | scheduler.dfy | the batch loop of `main` |
| `Patches` | patches.dfy | `patch_analysis`, `patch_analysis_per_subregion`, and the choice of what to write |
| `PatchFile` | patchfile.dfy | `write_patches_file` |
| `Ranking` | ranking.dfy | `process_calibration` |
| `Strds` | strds.dfy | `Sample`, `printDay`, column naming, and `where` |

Source paths below are relative to the repository root.

## Model

| member | source | states |
|---|---|---|
| Histogram.BinTerm | src/raster/r.futures/r.futures.calib/r.futures.calib.py:621-624 | For non-negative counts, one bin's term is non-negative and is zero exactly when the two counts agree. A bin empty on both sides is masked, so no division by zero can happen. |
| Histogram.CompareHistograms | src/raster/r.futures/r.futures.calib/r.futures.calib.py:614-625 | For two equal-length histograms of non-negative counts, the distance has no value (the masked sum of a fully masked array) exactly when every bin is empty in both, including when there are no bins. Otherwise it is a number that is never negative. |
| Histogram.DistanceZeroIffEqual | src/raster/r.futures/r.futures.calib/r.futures.calib.py:614-625 | The distance is zero if and only if the two histograms are identical and have a non-empty bin. |
| Histogram.InformativeNeverMasked | src/raster/r.futures/r.futures.calib/r.futures.calib.py:621-624 | Against a histogram with a non-empty bin, the distance always has a value. |
| Histogram.EmptyBinsHaveNoDistance | src/raster/r.futures/r.futures.calib/r.futures.calib.py:621-624 | Two histograms of empty bins have no distance, rather than a distance of zero. |
| Histogram.ZeroIffEqual | src/raster/r.futures/r.futures.calib/r.futures.calib.py:621-624 | The masked sum is non-negative, and it is zero if and only if the histograms agree bin by bin. |
| Histogram.Symmetric | src/raster/r.futures/r.futures.calib/r.futures.calib.py:614-625 | Swapping the two histograms does not change the distance. |
| Histogram.MaskedSumConcat | src/raster/r.futures/r.futures.calib/r.futures.calib.py:621-624 | The masked sum over consecutive ranges of bins is the sum of the sums over each range. |
| Histogram.JointlyEmptyBinIgnored | src/raster/r.futures/r.futures.calib/r.futures.calib.py:621-623 | Inserting a bin that is zero in both histograms, at any position, leaves the distance unchanged. |
| Histogram.DocumentedExample | src/raster/r.futures/r.futures.calib/r.futures.calib.py:615-619 | The documented example holds: counts [2, 3, 0] against [2, 1, 0] are at distance 0.5. |
| Grid.Enumerate | src/raster/r.futures/r.futures.calib/r.futures.calib.py:759-762 | Every launched combination takes its mean, range and discount factor from the three candidate lists. |
| Grid.EnumerateLength | src/raster/r.futures/r.futures.calib/r.futures.calib.py:757-762 | The grid has len(means) * len(ranges) * len(factors) combinations, matching num_all. |
| Grid.EnumerateAt | src/raster/r.futures/r.futures.calib/r.futures.calib.py:759-762 | The combination of mean i, range j and factor k sits at position i*(R*F) + j*F + k. So the mean is outermost and the discount factor innermost. |
| Grid.EnumerateLayout | src/raster/r.futures/r.futures.calib/r.futures.calib.py:757-762 | Every (mean, range, factor) triple has a position in the enumeration, and that position holds exactly that triple. |
| Grid.TrialSeed | src/raster/r.futures/r.futures.calib/r.futures.calib.py:353-355 | For a repeat index below 10000, the seed encodes both parts: dividing it by 10000 gives the combination seed, and the remainder is the repeat index. |
| Grid.SeedsIncrease | src/raster/r.futures/r.futures.calib/r.futures.calib.py:353-355 | If repeat <= 10000, the seed (randomSeed + c - 1) * 10000 + i strictly increases in launch order: by combination, then by repeat. |
| Grid.SeedsDistinct | src/raster/r.futures/r.futures.calib/r.futures.calib.py:353-355 | If repeat <= 10000, no two trials of a run share a seed. |
| Grid.SeedsCollideBeyondStride | src/raster/r.futures/r.futures.calib/r.futures.calib.py:353-355 | The bound is tight: repeat 10000 of one combination reuses the seed of repeat 0 of the next. |
| Trial.Score | src/raster/r.futures/r.futures.calib/r.futures.calib.py:396-399 | When both observed histograms have a non-empty bin, the two distances of a successful repeat have a value and are non-negative. |
| Trial.ScoreZeroIffReproduced | src/raster/r.futures/r.futures.calib/r.futures.calib.py:396-399 | A repeat's area (compactness) distance is zero exactly when its simulated histogram equals the observed one. |
| Trial.RepeatsContents | src/raster/r.futures/r.futures.calib/r.futures.calib.py:354-399 | The first n repeats all succeed if and only if every one of their simulations, run with seeds seed*10000 + i, succeeds. When they do, the distances are those repeats' scores, in seed order. |
| Trial.FailsIffSomeRepeatFails | src/raster/r.futures/r.futures.calib/r.futures.calib.py:368-383 | A combination yields None if and only if the simulation fails for some repeat i < repeat. |
| Trial.CombinationResult | src/raster/r.futures/r.futures.calib/r.futures.calib.py:350-410 | A successful result carries the combination it was run for. A negative `repeat` runs no repeat and reports both distances as zero. |
| Trial.ResultIsMean | src/raster/r.futures/r.futures.calib/r.futures.calib.py:396-409 | A successful result keeps its combination. Its distances times `repeat` equal the sums of the per-repeat distances, and both are non-negative. |
| Trial.PerfectReproductionScoresZero | src/raster/r.futures/r.futures.calib/r.futures.calib.py:396-402 | If every repeat reproduces the observed histograms, the combination succeeds with both mean distances zero. |
| Trial.FailureIsFinal | src/raster/r.futures/r.futures.calib/r.futures.calib.py:379-383 | Once a repeat has failed, running further repeats never turns the outcome into a success. |
| Trial.RunOneCombination | src/raster/r.futures/r.futures.calib/r.futures.calib.py:350-410 | The loop computes the combination's result. The seeds it hands to the simulation are seed*10000 + 0, 1, ..., in order. Every seed before the last succeeded. A None result means the last seed failed, and no repeat after it was run. |
| Ranking.WrittenLineReadsBack | src/raster/r.futures/r.futures.calib/r.futures.calib.py:800-811 | A result line as written reads back, by column position, as the same factor, mean, range and two distances. |
| Ranking.ParseLine | src/raster/r.futures/r.futures.calib/r.futures.calib.py:633-635 | Reading a five-number line and writing the row back in the results layout reproduces the line. |
| Scheduler.ResultLine | src/raster/r.futures/r.futures.calib/r.futures.calib.py:800-810 | A result line has five numbers, the count the unpacking read at 633 expects. Its column order is pinned down by Ranking.WrittenLineReadsBack. |
| Scheduler.Written | src/raster/r.futures/r.futures.calib/r.futures.calib.py:795-811 | There are no more lines than results, and every line written is the line of some successful result. |
| Scheduler.WrittenContents | src/raster/r.futures/r.futures.calib/r.futures.calib.py:795-811 | No more lines are written than results. When all results succeeded, line k is result k. When all failed, nothing is written. |
| Scheduler.WrittenFlatten | src/raster/r.futures/r.futures.calib/r.futures.calib.py:794-815 | Writing batch by batch writes the same lines, in the same order, as writing all results at once. |
| Scheduler.CollectBatch | src/raster/r.futures/r.futures.calib/r.futures.calib.py:795-811 | Reading a finished batch in launch order writes one line per successful result and skips the None results. |
| Scheduler.Calibrate | src/raster/r.futures/r.futures.calib/r.futures.calib.py:751-815 | The batches are launched in grid order. Combination k runs with seed counter randomSeed + k. No batch is empty. With nprocs >= 1, every batch but the last holds exactly nprocs combinations. Each flush writes its own batch's successes. So the file holds every successful result in enumeration order. |
| Patches.FilterPatches | src/raster/r.futures/r.futures.calib/r.futures.calib.py:543 | Every kept record is one of the input records and has area above the threshold. |
| Patches.FilterKeepsAll | src/raster/r.futures/r.futures.calib/r.futures.calib.py:543 | Every input record with area above the threshold is kept. |
| Patches.FilterConcat | src/raster/r.futures/r.futures.calib/r.futures.calib.py:543 | Filtering distributes over concatenation, so kept records keep their original order. |
| Patches.AdjustThreshold | src/raster/r.futures/r.futures.calib/r.futures.calib.py:687-688 | The adjusted threshold lies below the user threshold, and an area passes it exactly when the area plus 1e-6 exceeds the user threshold. |
| Patches.SinglePatchKept | src/raster/r.futures/r.futures.calib/r.futures.calib.py:687-688 | With the lowered threshold, a patch is kept exactly when its area exceeds threshold - 1e-6. In particular, a patch of exactly the threshold area is kept. |
| Patches.PatchAnalysis | src/raster/r.futures/r.futures.calib/r.futures.calib.py:528-547 | A failed extraction gives no patches. Otherwise the result is the filtered records. |
| Patches.Put | src/raster/r.futures/r.futures.calib/r.futures.calib.py:517-524 | Dictionary assignment keeps the keys distinct. An existing key keeps its place and takes the new value, and a new key is appended. |
| Patches.PerSubregion | src/raster/r.futures/r.futures.calib/r.futures.calib.py:495-525 | The per-subregion dictionary has no duplicate keys. |
| Patches.PerSubregionKeys | src/raster/r.futures/r.futures.calib/r.futures.calib.py:497-525 | The keys are exactly the listed categories, including categories whose extraction failed. |
| Patches.PerSubregionValues | src/raster/r.futures/r.futures.calib/r.futures.calib.py:505-524 | Each key holds its own category's analysis. That analysis is empty when the extraction failed. |
| Patches.PerSubregionOrder | src/raster/r.futures/r.futures.calib/r.futures.calib.py:495-525 | When the categories are listed without repetition, the keys are in listing order. |
| Patches.SelectWriteData | src/raster/r.futures/r.futures.calib/r.futures.calib.py:709-717 | The per-subregion table is written if and only if it was requested and has more than one key. Otherwise the region-wide analysis is written. |
| PatchFile.SortSizes | src/raster/r.futures/r.futures.calib/r.futures.calib.py:584 | The sorted sizes are ascending and are a permutation of the input. |
| PatchFile.SortedColumns | src/raster/r.futures/r.futures.calib/r.futures.calib.py:579-585 | There is one column per key. Each column is ascending and is a permutation of that subregion's sizes. |
| PatchFile.PadColumns | src/raster/r.futures/r.futures.calib/r.futures.calib.py:587-595 | The table is as tall as the longest column and has one cell per column in each row. Row i holds the i-th size of each column, or a blank where that column is shorter. |
| PatchFile.WritePatchesFile | src/raster/r.futures/r.futures.calib/r.futures.calib.py:577-611 | Flat data gives one ascending column that is a permutation of the sizes. Per-subregion data gives a header of the keys joined by the separator. If the longest column holds other than one size, the body is the padded table of sorted columns. If it holds exactly one size, the body has one line per key, holding that key's size or a blank. A single key holding a single patch is excluded, since the source raises there. |
| PatchFile.BlankOnlyAtTail | src/raster/r.futures/r.futures.calib/r.futures.calib.py:587-598 | In the two-dimensional table, below a blank cell there are only blanks, so padding sits only at the tail of a column. |
| PatchFile.HeaderRoundTrip | src/raster/r.futures/r.futures.calib/r.futures.calib.py:600 | Splitting the header at a one-character separator gives back the keys, provided no key contains that character. |
| PatchFile.ReloadedBody | src/raster/r.futures/r.futures.calib/r.futures.calib.py:596-602 | A table with other than one row is written back as it is. A single-row table of several cells comes back with one cell per line. A one-cell table is excluded, because it reloads as a scalar that cannot be written back. |
| PatchFile.SingleRowWrittenAsColumn | src/raster/r.futures/r.futures.calib/r.futures.calib.py:596-602 | With two subregions of one patch each, the file body has two lines of one cell under a two-key header. |
| PatchFile.TwoDimensionalBodyMatchesHeader | src/raster/r.futures/r.futures.calib/r.futures.calib.py:596-602 | In the corrected file, every line holds one cell per key, and there are as many lines as the longest column. |
| PatchFile.WritePatchesFileTwoDimensional | src/raster/r.futures/r.futures.calib/r.futures.calib.py:577-611 | Corrected version, body read back two-dimensionally. Flat data gives an ascending permutation of the sizes. Per-subregion data gives the joined header over the padded table: as tall as the longest column, row i holding each column's i-th sorted size or a blank. |
| PatchFile.AsWrittenDiffersOnlyForSingleRow | src/raster/r.futures/r.futures.calib/r.futures.calib.py:596-602 | The as-written and corrected files are equal whenever the longest column holds other than one size. With several subregions and a longest column of one size, they differ. |
| Ranking.ProcessCalibration | src/raster/r.futures/r.futures.calib/r.futures.calib.py:632-649 | The ranked rows are a permutation of the normalised input rows, in the ranked column order, sorted ascending by combined error. |
| Ranking.NormalizeRow | src/raster/r.futures/r.futures.calib/r.futures.calib.py:636-648 | The discount factor, mean and range are carried over from the input row. Each normalised error times its column maximum gives back the input error. Twice the combined error is the sum of the two normalised errors. |
| Ranking.RankedFromInput | src/raster/r.futures/r.futures.calib/r.futures.calib.py:639-649 | Every ranked row is the normalisation of some input row. |
| Ranking.InRanking | src/raster/r.futures/r.futures.calib/r.futures.calib.py:639-649 | Every input row, normalised, appears in the ranking. |
| Ranking.NormalizedInUnitInterval | src/raster/r.futures/r.futures.calib/r.futures.calib.py:636-638 | With non-negative errors, every normalised and combined error lies in [0, 1], and combined = (area + compactness) / 2. |
| Ranking.MaximalRowScoresOne | src/raster/r.futures/r.futures.calib/r.futures.calib.py:636-637 | A row holding a column's maximum error gets normalised error exactly 1 in that column. |
| Ranking.PerfectRowRanksFirst | src/raster/r.futures/r.futures.calib/r.futures.calib.py:636-649 | If some row has both errors zero, the first ranked row has combined error zero. |
| Strds.NewSample | grass7/vector/v.what.strds/v.what.strds.py:52-60 | The fields are stored as given. A missing list of raster names becomes the empty list. |
| Strds.Day | grass7/vector/v.what.strds/v.what.strds.py:69 | The day label is the timestamp up to its first space, with '-' turned into '_'. The label contains no space and no '-'. |
| Strds.PrintDay | grass7/vector/v.what.strds/v.what.strds.py:67-74 | 'start' gives the start's day label and 'end' the end's. Any other choice is the fatal error. A label never contains ' ' or '-'. |
| Strds.DayDropsTime | grass7/vector/v.what.strds/v.what.strds.py:69 | The label of "date time" depends only on the date: the time of day is dropped. |
| Strds.ColumnType | grass7/vector/v.what.strds/v.what.strds.py:169-174 | The type is INT exactly for CELL maps, and DOUBLE PRECISION otherwise. |
| Strds.ColumnName | grass7/vector/v.what.strds/v.what.strds.py:175-176 | The name is the dataset name, '_', and the start day; its tail after the '_' is printDay('start'). |
| Strds.ColumnString | grass7/vector/v.what.strds/v.what.strds.py:177-178 | As written, the definition is the name, a space, then the type, and a dot of the name stays where it was. |
| Strds.DotSurvivesInColumnString | grass7/vector/v.what.strds/v.what.strds.py:178 | For the dataset "precip.daily", the column definition still contains a '.'. |
| Strds.SanitizedColumnString | grass7/vector/v.what.strds/v.what.strds.py:177-178 | The corrected definition has no dot. For a dot-free type, it is the sanitised name, a space, then the type. |
| Strds.SampleColumn | grass7/vector/v.what.strds/v.what.strds.py:169-186 | Corrected version: a sample's column has the sanitised name, no dot in its name or definition, and a definition of that name, a space, and the map's type. |
| Strds.SampleColumnAsWritten | grass7/vector/v.what.strds/v.what.strds.py:169-186 | As written: the column is added and filled under the unsanitised name. Its definition is that name, a space, and the map's type, keeping every dot of the name. |
| Strds.AsWrittenColumnIffNoDot | grass7/vector/v.what.strds/v.what.strds.py:176-186 | The column the source writes equals the sanitised column exactly when the column name has no dot. |
| Strds.SampleColumnsAsWritten | grass7/vector/v.what.strds/v.what.strds.py:165-186 | As written: one column per raster map of the sample, in raster order, each the unsanitised column for that map's data type. |
| Strds.SampleColumns | grass7/vector/v.what.strds/v.what.strds.py:165-178 | Corrected version: one sanitised column per raster map of the sample, in raster order, typed by that map's data type. |
| Strds.NormalizeWhere | grass7/vector/v.what.strds/v.what.strds.py:87-88 | A `where` of "", " " or a newline means no condition. Any other text is kept unchanged. |

## Left out

- External GRASS modules are parameters of the model, not modelled code: the simulation (r.futures.pga), r.clump, r.object.geometry, r.describe, r.mapcalc, g.proj, g.remove, v.db.addcolumn and v.what.rast.
- Only two kinds of external failure are caught by the source and modelled. A failed r.futures.pga run becomes `SimulationFailed`, and a failed r.object.geometry run becomes `NoFeatures`.
- Other external failures are not modelled. If r.mapcalc or r.clump fails inside a worker, the exception escapes and nothing is queued, so the parent waits forever at `queue.get()`. The `Simulator` parameter is total, so the model has no such hang.
- Worker processes and queues: the parent joins and reads the workers in launch order, so the batch loop is modelled sequentially.
- Scheduler.Calibrate: the model assumes the workers of one batch do not interfere. A `Simulator` is a pure function of the combination and the seed. In the source, each worker names its rasters by the parent's temporary prefix (line 696) and a suffix: the factor, mean and range printed one after another with the dots removed (lines 340-345). The comment at line 339 calls this suffix unique, but it is not. A repeated list value collides, and so do different combinations: factor 0.1, mean 10.1, range 0.5 and factor 0.11, mean 0.1, range 0.5 both give "0110105". When two such combinations run in the same batch, they overwrite each other's rasters (lines 458, 469 and 488), and each worker's cleanup removes the other's maps. The model assumes the suffixes within a batch are distinct.
- Floating-point numerics are out of the model: histogram binning with density scaling, the compactness formula, the cell size, and rounding areas to cells. Histograms are given as sequences of non-negative reals, and rounding is the `toCells` parameter. Arithmetic is exact over `real`.
- Trial.Score: both observed histograms must have a non-empty bin (part of `Trial.Conforms`). Otherwise the masked sum of the source has no value. `main` only reaches the search with density histograms of at least one observed patch; with no patches it stops earlier, at `np.ptp` of an empty array.
- Trial.Score: simulated histograms are non-negative reals (part of `Trial.Conforms`). This excludes the NaN histogram that density binning (lines 560-572) produces whenever no simulated patch falls inside the bin range fixed from the observed data (lines 731 and 740), not only when the simulated run has no patches: the density is then 0/0. No bin of such a histogram is masked at line 621, since NaN counts as true. The masked-array division at line 624 then masks every non-finite quotient, so the sum over a fully masked array is `np.ma.masked`, not NaN. It stays masked through the accumulation at lines 396-399 and the mean at line 401. Its text is "--", so that is what the results line written at lines 800-807 holds. `np.loadtxt` at line 633 then raises on "--", and no ranking file is written at all. So one such repeat loses the whole ranking. The model has no masked value inside a sum, so it does not describe such a run.
- Text I/O is out of the model: `%u` and `%.2f` formatting, CSV parsing, the ranked file's header, and file writes and flushes. Lines are modelled as sequences of numbers, and the patch-size table as cells.
- Temporary-name bookkeeping, cleanup, option parsing and the addon check are plumbing outside the calculation.
- The v.what.strds temporal-database queries and sampling topology are left out, including how the dataset name is chosen when several datasets are sampled. Samples are inputs. The exit on a failed v.db.addcolumn or v.what.rast is left out with those modules.
- The whole of v.out.png is left out: it sets environment variables and calls a renderer.
- Trial.CombinationResult: `repeat == 0` is a precondition. The source then divides by zero in the worker, and the parent waits forever for a result that never comes.
- Ranking.ProcessCalibration: an empty results file is excluded by the precondition `Rankable`. There the five-way unpack at line 633 fails before any division.
- Ranking.ProcessCalibration: an error column whose maximum is zero is also excluded by `Rankable`. There the source divides by zero and ranks NaN values.
- Ranking.ProcessCalibration: rows with equal combined error may come out in any order. The source's argsort is not stable, so the contract states only sortedness and permutation. The model happens to use a stable sort.
- PatchFile.WritePatchesFile: per-subregion data must be `Reloadable`: at least one key, and not a single key holding a single patch. In that last case the source writes the header, reloads the 1x1 table as a 0-d array at line 597, and `np.savetxt` raises ValueError at line 602; the model has no value for it. `main` never gets there, since it only passes the dictionary when it has more than one key (line 715).
- Histogram.CompareHistograms: its own contract states when there is a value and that the value is non-negative. The zero-iff-identical property is stated in `Histogram.DistanceZeroIffEqual` and `Trial.ScoreZeroIffReproduced`.

## Findings

| source | as written | input that shows it | evidently intended | confidence | as-written member | corrected member |
|---|---|---|---|---|---|---|
| grass7/vector/v.what.strds/v.what.strds.py:178 | `column_string.replace('.', '_')` discards its result, so the column definition keeps the dataset name's dots | dataset "precip.daily", start day 2001_01_01, FCELL map: the definition is "precip.daily_2001_01_01 DOUBLE PRECISION" | dots of the column name turned into '_' in the definition and in the column the values are written to | not executed | Strds.SampleColumnAsWritten | Strds.SampleColumn |
| src/raster/r.futures/r.futures.calib/r.futures.calib.py:596-602 | the padded table is saved, reloaded with `np.loadtxt` and saved again; a single-row table reloads as a one-dimensional array and is saved one cell per line | two subregions with one patch each: header "1,2" followed by two lines of one size each | the reloaded table stays two-dimensional (`ndmin=2`), so the body is one line with one cell per key | not executed | PatchFile.SingleRowWrittenAsColumn | PatchFile.WritePatchesFileTwoDimensional |

=== FILE: grid.dfy ===
/**
 * The calibration grid: the cartesian product of the candidate compactness means,
 * compactness ranges and discount factors, enumerated with the mean outermost and
 * the discount factor innermost, and the random seed each trial runs with.
 */
module Grid {

  /** One point of the calibration grid. */
  datatype Combination = Combination(discountFactor: real, compactnessMean: real, compactnessRange: real)

  /** The innermost loop: every discount factor for one mean and one range. */
  function FactorRow(mean: real, range: real, factors: seq<real>): (row: seq<Combination>)
    ensures forall c :: c in row ==> c.compactnessMean == mean && c.compactnessRange == range && c.discountFactor in factors
  {
    seq(|factors|, k requires 0 <= k < |factors| => Combination(factors[k], mean, range))
  }

  /** The middle loop: every range, in order, for one mean. */
  function RangeBlock(mean: real, ranges: seq<real>, factors: seq<real>): (block: seq<Combination>)
    ensures forall c :: c in block ==> c.compactnessMean == mean && c.compactnessRange in ranges && c.discountFactor in factors
  {
    if |ranges| == 0 then []
    else
      var n := |ranges| - 1;
      assert forall x :: x in ranges[..n] ==> x in ranges;
      RangeBlock(mean, ranges[..n], factors) + FactorRow(mean, ranges[n], factors)
  }

  /** The outer loop: the whole grid in launch order. */
  function Enumerate(means: seq<real>, ranges: seq<real>, factors: seq<real>): (grid: seq<Combination>)
    ensures forall c :: c in grid ==> c.compactnessMean in means && c.compactnessRange in ranges && c.discountFactor in factors
  {
    if |means| == 0 then []
    else
      var n := |means| - 1;
      assert forall x :: x in means[..n] ==> x in means;
      Enumerate(means[..n], ranges, factors) + RangeBlock(means[n], ranges, factors)
  }

  /** Position (0-based) of the combination built from means[i], ranges[j] and factors[k]. */
  function Position(i: nat, j: nat, k: nat, rangeCount: nat, factorCount: nat): nat
  {
    i * (rangeCount * factorCount) + Offset(j, k, factorCount)
  }

  /** Position (0-based) of the combination built from ranges[j] and factors[k] within one mean's block. */
  function Offset(j: nat, k: nat, factorCount: nat): nat
  {
    j * factorCount + k
  }

  lemma MulMonotone(a: nat, b: nat, c: nat)
    requires a <= b
    ensures a * c <= b * c
  {
  }

  lemma MulSucc(a: nat, c: nat)
    ensures (a + 1) * c == a * c + c
  {
  }

  lemma {:induction false} RangeBlockLength(mean: real, ranges: seq<real>, factors: seq<real>)
    ensures |RangeBlock(mean, ranges, factors)| == |ranges| * |factors|
  {
    if |ranges| > 0 {
      RangeBlockLength(mean, ranges[..|ranges| - 1], factors);
      MulSucc(|ranges| - 1, |factors|);
    }
  }

  lemma {:induction false} RangeBlockAt(mean: real, ranges: seq<real>, factors: seq<real>, j: nat, k: nat)
    requires j < |ranges| && k < |factors|
    ensures Offset(j, k, |factors|) < |RangeBlock(mean, ranges, factors)|
    ensures RangeBlock(mean, ranges, factors)[Offset(j, k, |factors|)] == Combination(factors[k], mean, ranges[j])
  {
    var n := |ranges| - 1;
    var f := |factors|;
    RangeBlockLength(mean, ranges, factors);
    RangeBlockLength(mean, ranges[..n], factors);
    MulSucc(j, f);
    MulMonotone(j + 1, n + 1, f);
    if j < n {
      RangeBlockAt(mean, ranges[..n], factors, j, k);
      MulMonotone(j + 1, n, f);
      assert ranges[..n][j] == ranges[j];
    } else {
      assert j * f == |RangeBlock(mean, ranges[..n], factors)|;
    }
  }

  lemma {:induction false} EnumerateLength(means: seq<real>, ranges: seq<real>, factors: seq<real>)
    ensures |Enumerate(means, ranges, factors)| == |means| * (|ranges| * |factors|)
  {
    if |means| > 0 {
      EnumerateLength(means[..|means| - 1], ranges, factors);
      RangeBlockLength(means[|means| - 1], ranges, factors);
      MulSucc(|means| - 1, |ranges| * |factors|);
    }
  }

  lemma ConcatLeft<T>(a: seq<T>, b: seq<T>, m: nat)
    requires m < |a|
    ensures (a + b)[m] == a[m]
  {
  }

  lemma ConcatRight<T>(a: seq<T>, b: seq<T>, m: nat)
    requires m < |b|
    ensures |a| + m < |a + b| && (a + b)[|a| + m] == b[m]
  {
  }

  lemma {:induction false} EnumerateAt(means: seq<real>, ranges: seq<real>, factors: seq<real>, i: nat, j: nat, k: nat)
    requires i < |means| && j < |ranges| && k < |factors|
    ensures Position(i, j, k, |ranges|, |factors|) < |Enumerate(means, ranges, factors)|
    ensures Enumerate(means, ranges, factors)[Position(i, j, k, |ranges|, |factors|)]
      == Combination(factors[k], means[i], ranges[j])
  {
    var n := |means| - 1;
    var earlier := Enumerate(means[..n], ranges, factors);
    var last := RangeBlock(means[n], ranges, factors);
    var pos := Position(i, j, k, |ranges|, |factors|);
    assert Enumerate(means, ranges, factors) == earlier + last;
    if i < n {
      EnumerateAt(means[..n], ranges, factors, i, j, k);
      assert means[..n][i] == means[i];
      ConcatLeft(earlier, last, pos);
      assert (earlier + last)[pos] == Combination(factors[k], means[i], ranges[j]);
    } else {
      var off := Offset(j, k, |factors|);
      EnumerateLength(means[..n], ranges, factors);
      RangeBlockAt(means[n], ranges, factors, j, k);
      assert off < |last|;
      assert pos == |earlier| + off by {
        assert i == n;
      }
      ConcatRight(earlier, last, off);
      assert (earlier + last)[pos] == Combination(factors[k], means[i], ranges[j]);
    }
  }

  /**
   * The grid holds one combination per triple of candidate values, launched with
   * the compactness mean outermost, the compactness range in the middle and the
   * discount factor innermost.
   */
  lemma EnumerateLayout(means: seq<real>, ranges: seq<real>, factors: seq<real>)
    ensures |Enumerate(means, ranges, factors)| == |means| * (|ranges| * |factors|)
    ensures forall i: nat, j: nat, k: nat :: i < |means| && j < |ranges| && k < |factors| ==>
      Position(i, j, k, |ranges|, |factors|) < |Enumerate(means, ranges, factors)| &&
      Enumerate(means, ranges, factors)[Position(i, j, k, |ranges|, |factors|)]
        == Combination(factors[k], means[i], ranges[j])
  {
    EnumerateLength(means, ranges, factors);
    forall i: nat, j: nat, k: nat | i < |means| && j < |ranges| && k < |factors|
      ensures Position(i, j, k, |ranges|, |factors|) < |Enumerate(means, ranges, factors)|
      ensures Enumerate(means, ranges, factors)[Position(i, j, k, |ranges|, |factors|)]
        == Combination(factors[k], means[i], ranges[j])
    {
      EnumerateAt(means, ranges, factors, i, j, k);
    }
  }

  /** Number of trials a combination's seed block can hold before it meets the next one. */
  const SeedStride := 10000

  /**
   * The seed repeat `i` of a combination runs with, where `combinationSeed` is the
   * value the run's seed counter had when that combination was launched.
   */
  function TrialSeed(combinationSeed: int, i: int): (s: int)
    ensures 0 <= i < SeedStride ==> s / SeedStride == combinationSeed && s % SeedStride == i
  {
    combinationSeed * SeedStride + i
  }

  /**
   * Combination number `count` (1-based) is launched with seed counter
   * randomSeed + count - 1, so its repeat `i` runs with (randomSeed + count - 1) * 10000 + i.
   * In launch order (combination first, then repeat) the seeds strictly increase
   * as long as a combination has at most 10000 repeats.
   */
  lemma SeedsIncrease(randomSeed: int, repeat: int, c1: int, i1: int, c2: int, i2: int)
    requires repeat <= SeedStride
    requires 1 <= c1 && 1 <= c2
    requires 0 <= i1 < repeat && 0 <= i2 < repeat
    requires c1 < c2 || (c1 == c2 && i1 < i2)
    ensures TrialSeed(randomSeed + c1 - 1, i1) < TrialSeed(randomSeed + c2 - 1, i2)
  {
  }

  /** Hence no two trials of one run share a seed. */
  lemma SeedsDistinct(randomSeed: int, repeat: int, c1: int, i1: int, c2: int, i2: int)
    requires repeat <= SeedStride
    requires 1 <= c1 && 1 <= c2
    requires 0 <= i1 < repeat && 0 <= i2 < repeat
    requires c1 != c2 || i1 != i2
    ensures TrialSeed(randomSeed + c1 - 1, i1) != TrialSeed(randomSeed + c2 - 1, i2)
  {
    if c1 < c2 || (c1 == c2 && i1 < i2) {
      SeedsIncrease(randomSeed, repeat, c1, i1, c2, i2);
    } else {
      SeedsIncrease(randomSeed, repeat, c2, i2, c1, i1);
    }
  }

  /** The bound is tight: with 10001 repeats, a combination's last trial reuses the next one's first seed. */
  lemma SeedsCollideBeyondStride(randomSeed: int, c: int)
    requires 1 <= c
    ensures TrialSeed(randomSeed + c - 1, SeedStride) == TrialSeed(randomSeed + (c + 1) - 1, 0)
  {
  }
}

=== FILE: histogram.dfy ===
/**
 * The histogram distance that scores a simulated patch distribution against the
 * observed one: half the sum, over the bins where at least one histogram is
 * non-empty, of (a - b)^2 / (a + b). Bins that are empty in both histograms are
 * masked out rather than counted as a perfect match; when every bin is masked the
 * masked sum has no value at all.
 */
module Histogram {
  import opened Options
  import opened Reals

  /** Every bin holds a non-negative count or density. */
  predicate NonNegative(h: seq<real>)
  {
    forall i :: 0 <= i < |h| ==> h[i] >= 0.0
  }

  /** Two histograms built over the same bins, as the comparison demands. */
  predicate Comparable(h1: seq<real>, h2: seq<real>)
  {
    |h1| == |h2| && NonNegative(h1) && NonNegative(h2)
  }

  /** The contribution of one pair of bins; a pair that is empty on both sides is masked. */
  function BinTerm(a: real, b: real): (t: real)
    requires a >= 0.0 && b >= 0.0
    ensures t >= 0.0
    ensures t == 0.0 <==> a == b
  {
    if a == 0.0 && b == 0.0 then 0.0
    else
      SquareFacts(a - b);
      QuotientFacts(Square(a - b), a + b);
      Square(a - b) / (a + b)
  }

  /** Sum of the bin terms over the first `|h1|` bins, accumulated from the left. */
  function MaskedSum(h1: seq<real>, h2: seq<real>): real
    requires Comparable(h1, h2)
  {
    if |h1| == 0 then 0.0
    else MaskedSum(h1[..|h1| - 1], h2[..|h2| - 1]) + BinTerm(h1[|h1| - 1], h2[|h2| - 1])
  }

  /**
   * Every bin is empty in both histograms, so the mask hides all of them (vacuously
   * so when there are no bins).
   */
  predicate AllMasked(h1: seq<real>, h2: seq<real>)
    requires |h1| == |h2|
  {
    forall i :: 0 <= i < |h1| ==> h1[i] == 0.0 && h2[i] == 0.0
  }

  /** A histogram with at least one non-empty bin. */
  predicate Informative(h: seq<real>)
  {
    exists i :: 0 <= i < |h| && h[i] != 0.0
  }

  /**
   * The histogram distance of the calibration (compare_histograms). The sum of a
   * fully masked array is itself masked, modelled as None.
   */
  function CompareHistograms(h1: seq<real>, h2: seq<real>): (d: Option<real>)
    requires Comparable(h1, h2)
    ensures d.None? <==> AllMasked(h1, h2)
    ensures d.Some? ==> d.value >= 0.0
  {
    if AllMasked(h1, h2) then None
    else
      MaskedSumNonNegative(h1, h2);
      Some(0.5 * MaskedSum(h1, h2))
  }

  /** Against an informative histogram the distance always has a value. */
  lemma InformativeNeverMasked(h1: seq<real>, h2: seq<real>)
    requires Comparable(h1, h2) && Informative(h1)
    ensures CompareHistograms(h1, h2).Some?
  {
    var i :| 0 <= i < |h1| && h1[i] != 0.0;
  }

  /**
   * The distance is zero exactly when the two histograms are identical and have a
   * non-empty bin; identical histograms without one have no distance.
   */
  lemma DistanceZeroIffEqual(h1: seq<real>, h2: seq<real>)
    requires Comparable(h1, h2)
    ensures CompareHistograms(h1, h2) == Some(0.0) <==> h1 == h2 && !AllMasked(h1, h2)
  {
    ZeroIffEqual(h1, h2);
  }

  lemma {:induction false} MaskedSumNonNegative(h1: seq<real>, h2: seq<real>)
    requires Comparable(h1, h2)
    ensures MaskedSum(h1, h2) >= 0.0
  {
    if |h1| > 0 {
      MaskedSumNonNegative(h1[..|h1| - 1], h2[..|h2| - 1]);
    }
  }

  /** The masked sum vanishes exactly when the histograms agree bin by bin. */
  lemma {:induction false} ZeroIffEqual(h1: seq<real>, h2: seq<real>)
    requires Comparable(h1, h2)
    ensures MaskedSum(h1, h2) >= 0.0
    ensures MaskedSum(h1, h2) == 0.0 <==> h1 == h2
  {
    if |h1| > 0 {
      var n := |h1| - 1;
      ZeroIffEqual(h1[..n], h2[..n]);
      assert h1 == h1[..n] + [h1[n]];
      assert h2 == h2[..n] + [h2[n]];
    }
  }

  /** The distance is symmetric in its two histograms. */
  lemma {:induction false} Symmetric(h1: seq<real>, h2: seq<real>)
    requires Comparable(h1, h2)
    ensures CompareHistograms(h1, h2) == CompareHistograms(h2, h1)
  {
    MaskedSumSymmetric(h1, h2);
  }

  lemma {:induction false} MaskedSumSymmetric(h1: seq<real>, h2: seq<real>)
    requires Comparable(h1, h2)
    ensures MaskedSum(h1, h2) == MaskedSum(h2, h1)
  {
    if |h1| > 0 {
      var n := |h1| - 1;
      MaskedSumSymmetric(h1[..n], h2[..n]);
      SquareFacts(h1[n] - h2[n]);
      assert h2[n] - h1[n] == -(h1[n] - h2[n]);
    }
  }

  /** The masked sum splits over consecutive ranges of bins. */
  lemma {:induction false} MaskedSumConcat(a1: seq<real>, b1: seq<real>, a2: seq<real>, b2: seq<real>)
    requires Comparable(a1, a2) && Comparable(b1, b2)
    ensures Comparable(a1 + b1, a2 + b2)
    ensures MaskedSum(a1 + b1, a2 + b2) == MaskedSum(a1, a2) + MaskedSum(b1, b2)
  {
    assert Comparable(a1 + b1, a2 + b2) by {
      forall i | 0 <= i < |a1 + b1|
        ensures (a1 + b1)[i] >= 0.0 && (a2 + b2)[i] >= 0.0
      {
        if i >= |a1| {
          assert (a1 + b1)[i] == b1[i - |a1|];
          assert (a2 + b2)[i] == b2[i - |a2|];
        }
      }
    }
    if |b1| == 0 {
      assert a1 + b1 == a1 && a2 + b2 == a2;
    } else {
      var n := |b1| - 1;
      MaskedSumConcat(a1, b1[..n], a2, b2[..n]);
      assert (a1 + b1)[..|a1 + b1| - 1] == a1 + b1[..n];
      assert (a2 + b2)[..|a2 + b2| - 1] == a2 + b2[..n];
    }
  }

  /**
   * A bin that is empty in both histograms changes nothing, wherever it sits:
   * it carries no information, so it neither adds distance nor counts as agreement.
   */
  lemma JointlyEmptyBinIgnored(a1: seq<real>, b1: seq<real>, a2: seq<real>, b2: seq<real>)
    requires Comparable(a1 + b1, a2 + b2) && |a1| == |a2|
    ensures Comparable(a1 + [0.0] + b1, a2 + [0.0] + b2)
    ensures CompareHistograms(a1 + [0.0] + b1, a2 + [0.0] + b2)
         == CompareHistograms(a1 + b1, a2 + b2)
  {
    assert Comparable(a1, a2) by {
      forall i | 0 <= i < |a1| ensures a1[i] >= 0.0 && a2[i] >= 0.0 {
        assert a1[i] == (a1 + b1)[i];
        assert a2[i] == (a2 + b2)[i];
      }
    }
    assert Comparable(b1, b2) by {
      forall i | 0 <= i < |b1| ensures b1[i] >= 0.0 && b2[i] >= 0.0 {
        assert b1[i] == (a1 + b1)[|a1| + i];
        assert b2[i] == (a2 + b2)[|a2| + i];
      }
    }
    MaskedSumConcat(a1, [0.0], a2, [0.0]);
    MaskedSumConcat(a1 + [0.0], b1, a2 + [0.0], b2);
    MaskedSumConcat(a1, b1, a2, b2);
    assert MaskedSum([0.0], [0.0]) == 0.0 by {
      assert [0.0][..0] == [];
    }
    MaskedUnderInsertion(a1, b1, a2, b2);
  }

  /** Inserting a jointly empty bin keeps the histograms fully masked or not. */
  lemma MaskedUnderInsertion(a1: seq<real>, b1: seq<real>, a2: seq<real>, b2: seq<real>)
    requires |a1| == |a2| && |b1| == |b2|
    ensures AllMasked(a1 + [0.0] + b1, a2 + [0.0] + b2) <==> AllMasked(a1 + b1, a2 + b2)
  {
    var x1, x2 := a1 + [0.0] + b1, a2 + [0.0] + b2;
    var y1, y2 := a1 + b1, a2 + b2;
    if AllMasked(y1, y2) {
      forall i | 0 <= i < |x1| ensures x1[i] == 0.0 && x2[i] == 0.0 {
        if i < |a1| {
          assert x1[i] == y1[i] && x2[i] == y2[i];
        } else if i > |a1| {
          assert x1[i] == y1[i - 1] && x2[i] == y2[i - 1];
        }
      }
    }
    if AllMasked(x1, x2) {
      forall i | 0 <= i < |y1| ensures y1[i] == 0.0 && y2[i] == 0.0 {
        if i < |a1| {
          assert x1[i] == y1[i] && x2[i] == y2[i];
        } else {
          assert x1[i + 1] == y1[i] && x2[i + 1] == y2[i];
        }
      }
    }
  }

  /** The documented example: counts [2, 3, 0] against [2, 1, 0] are at distance 0.5. */
  lemma DocumentedExample()
    ensures CompareHistograms([2.0, 3.0, 0.0], [2.0, 1.0, 0.0]) == Some(0.5)
  {
    var h1 := [2.0, 3.0, 0.0];
    var h2 := [2.0, 1.0, 0.0];
    assert h1[..2] == [2.0, 3.0] && h2[..2] == [2.0, 1.0];
    assert h1[..2][..1] == [2.0] && h2[..2][..1] == [2.0];
    assert [2.0][..0] == [];
    assert MaskedSum([2.0], [2.0]) == 0.0;
    assert MaskedSum([2.0, 3.0], [2.0, 1.0]) == 1.0;
    assert !AllMasked(h1, h2) by {
      assert h1[0] != 0.0;
    }
  }

  /** Two empty bins have no distance at all, rather than a distance of zero. */
  lemma EmptyBinsHaveNoDistance()
    ensures CompareHistograms([0.0, 0.0], [0.0, 0.0]) == None
  {
  }
}

=== FILE: options.dfy ===
/** Failure-carrying values shared by the calibration and sampling models. */
module Options {

  /** A value that may be absent: Python's `None` sentinel. */
  datatype Option<+T> = None | Some(value: T)

  /** The outcome of an operation that may stop with a fatal diagnostic. */
  datatype Result<+T> = Ok(value: T) | Fatal(message: string)
}

=== FILE: patches.dfy ===
/**
 * Patch analysis (patch_analysis, patch_analysis_per_subregion): the patches the
 * external geometry extractor reports are filtered by area against the lowered
 * threshold main computes, for the whole region or per subregion category.
 */
module Patches {
  import opened Options
  import opened Seqs

  /** One connected patch of new development, in native raster units. */
  datatype Patch = Patch(area: real, perimeter: real)

  /** What the geometry extractor reports: its failure (no features), or one record per patch. */
  datatype GeometryOutcome = NoFeatures | Records(records: seq<Patch>)

  /** Patches of one subregion category, as one entry of the per-subregion dictionary. */
  datatype Entry = Entry(category: string, patches: seq<Patch>)

  /** The patches handed to the patch-size writer: one table for the region, or one per subregion. */
  datatype PatchDataset = Flat(patches: seq<Patch>) | Partitioned(entries: seq<Entry>)

  /** How far main lowers the user's threshold, so that a patch of exactly the threshold area is kept. */
  const Epsilon: real := 0.000001

  /**
   * The threshold the analysis compares areas with: the user's threshold lowered by
   * Epsilon, so that the strict comparison keeps an area equal to the threshold.
   */
  function AdjustThreshold(threshold: real): (adjusted: real)
    ensures adjusted < threshold
    ensures forall p: Patch :: p.area > adjusted <==> p.area + Epsilon > threshold
  {
    threshold - Epsilon
  }

  /** The records whose area exceeds the (adjusted) threshold, in their original order. */
  function FilterPatches(records: seq<Patch>, adjusted: real): (kept: seq<Patch>)
    ensures |kept| <= |records|
    ensures forall i :: 0 <= i < |kept| ==> kept[i].area > adjusted && kept[i] in records
  {
    if |records| == 0 then []
    else
      var n := |records| - 1;
      FilterPatches(records[..n], adjusted) + (if records[n].area > adjusted then [records[n]] else [])
  }

  /** Nothing above the threshold is lost: every such record is among the kept ones. */
  lemma {:induction false} FilterKeepsAll(records: seq<Patch>, adjusted: real)
    ensures forall i :: 0 <= i < |records| && records[i].area > adjusted ==>
      records[i] in FilterPatches(records, adjusted)
  {
    if |records| > 0 {
      var n := |records| - 1;
      FilterKeepsAll(records[..n], adjusted);
      assert forall i :: 0 <= i < n ==> records[i] == records[..n][i];
    }
  }

  /** Filtering a sequence extended by one record keeps that record exactly when it is large enough. */
  lemma FilterSnoc(xs: seq<Patch>, x: Patch, adjusted: real)
    ensures FilterPatches(xs + [x], adjusted) == FilterPatches(xs, adjusted) + (if x.area > adjusted then [x] else [])
  {
    assert (xs + [x])[..|xs|] == xs;
  }

  /** Filtering distributes over concatenation, so the kept records keep their relative order. */
  lemma {:induction false} FilterConcat(a: seq<Patch>, b: seq<Patch>, adjusted: real)
    ensures FilterPatches(a + b, adjusted) == FilterPatches(a, adjusted) + FilterPatches(b, adjusted)
    decreases |b|
  {
    if |b| == 0 {
      assert a + b == a;
    } else {
      var n := |b| - 1;
      var x := b[n];
      FilterConcat(a, b[..n], adjusted);
      assert b == b[..n] + [x];
      assert a + b == (a + b[..n]) + [x];
      FilterSnoc(a + b[..n], x, adjusted);
      FilterSnoc(b[..n], x, adjusted);
      var fa, fb := FilterPatches(a, adjusted), FilterPatches(b[..n], adjusted);
      var tail := if x.area > adjusted then [x] else [];
      AppendAssociative(fa, fb, tail);
    }
  }

  /**
   * With the threshold the user gives, a patch survives the analysis exactly when its
   * area is above threshold - 1e-6; in particular a patch of exactly the threshold area is kept.
   */
  lemma {:induction false} SinglePatchKept(p: Patch, threshold: real)
    ensures FilterPatches([p], AdjustThreshold(threshold)) == (if p.area > threshold - Epsilon then [p] else [])
    ensures p.area == threshold ==> FilterPatches([p], AdjustThreshold(threshold)) == [p]
  {
    assert [p][..0] == [];
  }

  /** patch_analysis: a failed extraction means no patches; otherwise the filtered records. */
  function PatchAnalysis(g: GeometryOutcome, adjusted: real): (kept: seq<Patch>)
    ensures g.NoFeatures? ==> kept == []
    ensures g.Records? ==> |kept| <= |g.records|
    ensures forall i :: 0 <= i < |kept| ==> kept[i].area > adjusted && kept[i] in g.records
  {
    match g
    case NoFeatures => []
    case Records(rs) => FilterPatches(rs, adjusted)
  }

  /** The categories of a per-subregion dictionary, in insertion order. */
  function Categories(d: seq<Entry>): (cats: seq<string>)
    ensures |cats| == |d|
    ensures forall i :: 0 <= i < |d| ==> cats[i] == d[i].category
  {
    seq(|d|, i requires 0 <= i < |d| => d[i].category)
  }

  /** No category appears twice. */
  predicate DistinctCategories(d: seq<Entry>)
  {
    forall i, j :: 0 <= i < j < |d| ==> d[i].category != d[j].category
  }

  /** The position of a category among the keys, or -1 when it is not a key. */
  function FindCategory(d: seq<Entry>, c: string): (i: int)
    ensures -1 <= i < |d|
    ensures i >= 0 ==> d[i].category == c
    ensures i < 0 ==> forall j :: 0 <= j < |d| ==> d[j].category != c
  {
    if |d| == 0 then -1
    else if d[|d| - 1].category == c then |d| - 1
    else FindCategory(d[..|d| - 1], c)
  }

  /**
   * Python's `d[key] = value` on an insertion-ordered dictionary: an existing key
   * keeps its position and takes the new value, a new key goes at the end.
   */
  function Put(d: seq<Entry>, e: Entry): (r: seq<Entry>)
    requires DistinctCategories(d)
    ensures DistinctCategories(r)
    ensures (exists i :: 0 <= i < |d| && d[i].category == e.category) ==>
      |r| == |d| && forall i :: 0 <= i < |d| ==> r[i] == (if d[i].category == e.category then e else d[i])
    ensures (forall i :: 0 <= i < |d| ==> d[i].category != e.category) ==> r == d + [e]
    ensures forall x :: x in r ==> x == e || x in d
  {
    var i := FindCategory(d, e.category);
    if i < 0 then d + [e] else d[i := e]
  }

  /**
   * patch_analysis_per_subregion: one dictionary entry per category listed, each
   * holding the filtered patches of that category's extraction; a category whose
   * extraction fails still gets an entry, with no patches.
   */
  function PerSubregion(cats: seq<string>, geometry: string -> GeometryOutcome, adjusted: real): (d: seq<Entry>)
    ensures DistinctCategories(d)
  {
    if |cats| == 0 then []
    else
      var n := |cats| - 1;
      Put(PerSubregion(cats[..n], geometry, adjusted), Entry(cats[n], PatchAnalysis(geometry(cats[n]), adjusted)))
  }

  /** Storing a new category appends it to the keys; storing an existing one leaves the keys alone. */
  lemma CategoriesPut(d: seq<Entry>, e: Entry)
    requires DistinctCategories(d)
    ensures e.category in Categories(d) ==> Categories(Put(d, e)) == Categories(d)
    ensures e.category !in Categories(d) ==> Categories(Put(d, e)) == Categories(d) + [e.category]
  {
    var i := FindCategory(d, e.category);
    if i >= 0 {
      assert Categories(d)[i] == e.category;
      assert Categories(Put(d, e)) == Categories(d);
    } else {
      assert e.category !in Categories(d);
      assert Categories(Put(d, e)) == Categories(d) + [e.category];
    }
  }

  /** The dictionary has exactly the listed categories as keys. */
  lemma {:induction false} PerSubregionKeys(cats: seq<string>, geometry: string -> GeometryOutcome, adjusted: real)
    ensures forall c :: c in cats <==> c in Categories(PerSubregion(cats, geometry, adjusted))
  {
    if |cats| > 0 {
      var n := |cats| - 1;
      var prev := PerSubregion(cats[..n], geometry, adjusted);
      PerSubregionKeys(cats[..n], geometry, adjusted);
      CategoriesPut(prev, Entry(cats[n], PatchAnalysis(geometry(cats[n]), adjusted)));
      assert cats == cats[..n] + [cats[n]];
    }
  }

  /** Each key holds its own category's analysis, an empty one when the extraction failed. */
  lemma {:induction false} PerSubregionValues(cats: seq<string>, geometry: string -> GeometryOutcome, adjusted: real)
    ensures forall x :: x in PerSubregion(cats, geometry, adjusted) ==>
      x.patches == PatchAnalysis(geometry(x.category), adjusted)
  {
    if |cats| > 0 {
      PerSubregionValues(cats[..|cats| - 1], geometry, adjusted);
    }
  }

  /** When the categories are listed without repetition, the keys follow the listing order. */
  lemma {:induction false} PerSubregionOrder(cats: seq<string>, geometry: string -> GeometryOutcome, adjusted: real)
    requires forall i, j :: 0 <= i < j < |cats| ==> cats[i] != cats[j]
    ensures Categories(PerSubregion(cats, geometry, adjusted)) == cats
  {
    if |cats| > 0 {
      var n := |cats| - 1;
      var prev := PerSubregion(cats[..n], geometry, adjusted);
      PerSubregionOrder(cats[..n], geometry, adjusted);
      assert cats[n] !in cats[..n];
      CategoriesPut(prev, Entry(cats[n], PatchAnalysis(geometry(cats[n]), adjusted)));
      assert cats == cats[..n] + [cats[n]];
    }
  }

  /**
   * What main writes to the patch-size file: the per-subregion dictionary when it was
   * requested and has more than one category, the region-wide analysis otherwise.
   */
  function SelectWriteData(flat: seq<Patch>, perSubregion: Option<seq<Entry>>): (w: PatchDataset)
    ensures w.Partitioned? <==> perSubregion.Some? && |perSubregion.value| > 1
    ensures w.Partitioned? ==> w.entries == perSubregion.value
    ensures w.Flat? ==> w.patches == flat
  {
    if perSubregion.Some? && |perSubregion.value| > 1 then Partitioned(perSubregion.value) else Flat(flat)
  }
}

=== FILE: patchfile.dfy ===
/**
 * The patch-size file (write_patches_file): patch areas converted to cell counts,
 * sorted ascending; either one column for the whole region, or one column per
 * subregion under a header of the category names, with shorter columns padded by
 * blank cells at the bottom.
 */
module PatchFile {
  import opened Seqs
  import opened Sorting
  import opened Patches

  /** One cell of the per-subregion table: a patch size, or the blank used for padding. */
  datatype Cell = Count(cells: int) | Blank

  /** The file's content: a single column of sizes, or a header line and table rows. */
  datatype PatchSizes = Column(sizes: seq<int>) | Table(header: string, rows: seq<seq<Cell>>)

  /** Integers never decrease from left to right. */
  predicate Ascending(xs: seq<int>)
  {
    forall i, j :: 0 <= i < j < |xs| ==> xs[i] <= xs[j]
  }

  function AsReal(x: int): real
  {
    x as real
  }

  /** numpy's sort of an integer array. */
  function SortSizes(xs: seq<int>): (r: seq<int>)
    ensures Ascending(r)
    ensures multiset(r) == multiset(xs)
  {
    var r := SortBy(xs, AsReal);
    assert forall i, j :: 0 <= i < j < |r| ==> AsReal(r[i]) <= AsReal(r[j]);
    r
  }

  /**
   * Patch sizes in cells; `toCells` stands for rounding area / cell_size to the
   * nearest integer, which is floating-point work left to the caller.
   */
  function Sizes(ps: seq<Patch>, toCells: real -> int): (sizes: seq<int>)
    ensures |sizes| == |ps|
    ensures forall i :: 0 <= i < |ps| ==> sizes[i] == toCells(ps[i].area)
  {
    seq(|ps|, i requires 0 <= i < |ps| => toCells(ps[i].area))
  }

  /** One sorted column per subregion, in the dictionary's key order. */
  function SortedColumns(entries: seq<Entry>, toCells: real -> int): (cols: seq<seq<int>>)
    ensures |cols| == |entries|
    ensures forall j :: 0 <= j < |entries| ==>
      Ascending(cols[j]) && multiset(cols[j]) == multiset(Sizes(entries[j].patches, toCells))
  {
    seq(|entries|, j requires 0 <= j < |entries| => SortSizes(Sizes(entries[j].patches, toCells)))
  }

  /**
   * The rows lay out the columns side by side: as tall as the longest column, one
   * cell per column in every row, row i holding the i-th entry of each column and
   * a blank where that column is shorter.
   */
  predicate PaddedTable(rows: seq<seq<Cell>>, cols: seq<seq<int>>)
  {
    && (forall j :: 0 <= j < |cols| ==> |cols[j]| <= |rows|)
    && (exists j :: 0 <= j < |cols| && |cols[j]| == |rows|)
    && (forall i :: 0 <= i < |rows| ==> |rows[i]| == |cols|)
    && (forall i, j :: 0 <= i < |rows| && 0 <= j < |cols| ==>
          rows[i][j] == if i < |cols[j]| then Count(cols[j][i]) else Blank)
  }

  /** The table rows of at least one column, padded to the longest one. */
  function PadColumns(cols: seq<seq<int>>): (rows: seq<seq<Cell>>)
    requires |cols| > 0
    ensures PaddedTable(rows, cols)
  {
    var height := MaxLength(cols);
    seq(height, i requires 0 <= i < height =>
      seq(|cols|, j requires 0 <= j < |cols| => if i < |cols[j]| then Count(cols[j][i]) else Blank))
  }

  /** The parts separated by `sep`, as Python's `sep.join(parts)`. */
  function Join(parts: seq<string>, sep: string): string
  {
    if |parts| == 0 then ""
    else if |parts| == 1 then parts[0]
    else parts[0] + sep + Join(parts[1..], sep)
  }

  /**
   * The table body as the file finally holds it, one inner sequence per line. The
   * padded rows are written, read back as text and written again; reading back
   * squeezes a single-row table into a one-dimensional array, and writing a
   * one-dimensional array puts each element on a line of its own. A table of one
   * cell is squeezed further, into a scalar, which cannot be written at all.
   */
  function ReloadedBody(rows: seq<seq<Cell>>): (lines: seq<seq<Cell>>)
    requires |rows| == 1 ==> |rows[0]| != 1
    ensures |rows| != 1 ==> lines == rows
    ensures |rows| == 1 ==> |lines| == |rows[0]| && forall j :: 0 <= j < |lines| ==> lines[j] == [rows[0][j]]
  {
    if |rows| == 1 then seq(|rows[0]|, j requires 0 <= j < |rows[0]| => [rows[0][j]]) else rows
  }

  /** A padded table is as tall as its longest column. */
  lemma PaddedHeight(rows: seq<seq<Cell>>, cols: seq<seq<int>>)
    requires |cols| > 0 && PaddedTable(rows, cols)
    ensures |rows| == MaxLength(cols)
  {
    var j :| 0 <= j < |cols| && |cols[j]| == |rows|;
    var k :| 0 <= k < |cols| && |cols[k]| == MaxLength(cols);
  }

  /**
   * Per-subregion data whose padded table survives being read back: at least one
   * key, and not a single key holding a single patch, whose one-cell table would be
   * read back as a scalar.
   */
  predicate Reloadable(entries: seq<Entry>)
  {
    |entries| > 0 && (|entries| == 1 ==> |entries[0].patches| != 1)
  }

  /**
   * write_patches_file, as written. The flat file is the sizes sorted ascending. The
   * per-subregion file has a header of the categories joined by the separator. When
   * the longest column holds other than one size, the body is the padded table:
   * each column its subregion's sizes sorted ascending, continued with blank cells.
   * When the longest column holds exactly one size, the body has one line per
   * subregion, holding that subregion's size or a blank.
   */
  function WritePatchesFile(data: PatchDataset, toCells: real -> int, sep: string): (out: PatchSizes)
    requires data.Partitioned? ==> Reloadable(data.entries)
    ensures data.Flat? ==>
      && out.Column?
      && Ascending(out.sizes)
      && multiset(out.sizes) == multiset(Sizes(data.patches, toCells))
    ensures data.Partitioned? ==> out.Table? && out.header == Join(Categories(data.entries), sep)
    ensures data.Partitioned? && MaxLength(SortedColumns(data.entries, toCells)) != 1 ==>
      PaddedTable(out.rows, SortedColumns(data.entries, toCells))
    ensures data.Partitioned? && MaxLength(SortedColumns(data.entries, toCells)) == 1 ==>
      var cols := SortedColumns(data.entries, toCells);
      && |out.rows| == |data.entries|
      && forall j :: 0 <= j < |cols| ==> out.rows[j] == [if |cols[j]| > 0 then Count(cols[j][0]) else Blank]
  {
    match data
    case Flat(ps) => Column(SortSizes(Sizes(ps, toCells)))
    case Partitioned(entries) =>
      var cols := SortedColumns(entries, toCells);
      var rows := PadColumns(cols);
      PaddedHeight(rows, cols);
      Table(Join(Categories(entries), sep), ReloadedBody(rows))
  }

  /** Every line of a file body holds one cell per category named in the header. */
  predicate LinesMatchHeader(lines: seq<seq<Cell>>, entries: seq<Entry>)
  {
    forall i :: 0 <= i < |lines| ==> |lines[i]| == |Categories(entries)|
  }

  /**
   * Two subregions with one patch each: the table has a single row of two sizes, and
   * the file ends up with two lines of one size each under a two-name header.
   */
  lemma SingleRowWrittenAsColumn(toCells: real -> int)
    ensures var data := Partitioned([Entry("1", [Patch(5.0, 9.0)]), Entry("2", [Patch(7.0, 11.0)])]);
      var lines := WritePatchesFile(data, toCells, ",").rows;
      && |lines| == 2
      && !LinesMatchHeader(lines, data.entries)
  {
    var data := Partitioned([Entry("1", [Patch(5.0, 9.0)]), Entry("2", [Patch(7.0, 11.0)])]);
    var cols := SortedColumns(data.entries, toCells);
    assert |cols[0]| == 1 && |cols[1]| == 1;
    assert MaxLength(cols) == 1;
    assert |Categories(data.entries)| == 2;
  }

  /**
   * write_patches_file with the body read back two-dimensionally (numpy's `ndmin=2`),
   * so the padded rows are written as they are, whatever their number. The flat file is
   * the sizes sorted ascending. The table has a header of the categories joined by
   * the separator; each column is its subregion's sizes sorted ascending; the table
   * is as tall as the longest column and a shorter column is continued with blank
   * cells, never with numbers.
   */
  function WritePatchesFileTwoDimensional(data: PatchDataset, toCells: real -> int, sep: string): (out: PatchSizes)
    requires data.Partitioned? ==> |data.entries| > 0
    ensures data.Flat? ==>
      && out.Column?
      && Ascending(out.sizes)
      && multiset(out.sizes) == multiset(Sizes(data.patches, toCells))
    ensures data.Partitioned? ==> out.Table? && out.header == Join(Categories(data.entries), sep)
    ensures data.Partitioned? ==> PaddedTable(out.rows, SortedColumns(data.entries, toCells))
  {
    match data
    case Flat(ps) => Column(SortSizes(Sizes(ps, toCells)))
    case Partitioned(entries) =>
      Table(Join(Categories(entries), sep), PadColumns(SortedColumns(entries, toCells)))
  }

  /** With the body kept two-dimensional, every line of a per-subregion file matches its header. */
  lemma TwoDimensionalBodyMatchesHeader(data: PatchDataset, toCells: real -> int, sep: string)
    requires data.Partitioned? && |data.entries| > 0
    ensures LinesMatchHeader(WritePatchesFileTwoDimensional(data, toCells, sep).rows, data.entries)
    ensures |WritePatchesFileTwoDimensional(data, toCells, sep).rows| == MaxLength(SortedColumns(data.entries, toCells))
  {
    var cols := SortedColumns(data.entries, toCells);
    var rows: seq<seq<Cell>> := WritePatchesFileTwoDimensional(data, toCells, sep).rows;
    PaddedHeight(rows, cols);
  }

  /**
   * The two versions write the same file unless the longest column holds exactly
   * one size; then, with several subregions, they differ.
   */
  lemma AsWrittenDiffersOnlyForSingleRow(data: PatchDataset, toCells: real -> int, sep: string)
    requires data.Partitioned? && Reloadable(data.entries)
    ensures MaxLength(SortedColumns(data.entries, toCells)) != 1 ==>
      WritePatchesFile(data, toCells, sep) == WritePatchesFileTwoDimensional(data, toCells, sep)
    ensures MaxLength(SortedColumns(data.entries, toCells)) == 1 && |data.entries| > 1 ==>
      WritePatchesFile(data, toCells, sep) != WritePatchesFileTwoDimensional(data, toCells, sep)
  {
    var cols := SortedColumns(data.entries, toCells);
    var rows := PadColumns(cols);
    PaddedHeight(rows, cols);
    if MaxLength(cols) == 1 && |data.entries| > 1 {
      assert |WritePatchesFile(data, toCells, sep).rows| == |data.entries|;
      assert |WritePatchesFileTwoDimensional(data, toCells, sep).rows| == 1;
    }
  }

  /**
   * In the table, padding only ever follows a column's sizes: below a blank cell
   * there is nothing but blanks, and a subregion without patches is an all-blank column.
   */
  lemma BlankOnlyAtTail(data: PatchDataset, toCells: real -> int, sep: string)
    requires data.Partitioned? && |data.entries| > 0
    ensures var rows: seq<seq<Cell>> := WritePatchesFileTwoDimensional(data, toCells, sep).rows;
      forall i: nat, k: nat, j: nat :: i <= k < |rows| && 0 <= j < |data.entries| && rows[i][j].Blank? ==> rows[k][j].Blank?
  {
    var rows: seq<seq<Cell>> := WritePatchesFileTwoDimensional(data, toCells, sep).rows;
    var cols := SortedColumns(data.entries, toCells);
    forall i: nat, k: nat, j: nat | 0 <= i <= k < |rows| && 0 <= j < |data.entries| && rows[i][j].Blank?
      ensures rows[k][j].Blank?
    {
      PaddingBelowBlank(rows, cols, i, k, j);
    }
  }

  lemma PaddingBelowBlank(rows: seq<seq<Cell>>, cols: seq<seq<int>>, i: nat, k: nat, j: nat)
    requires PaddedTable(rows, cols)
    requires i <= k < |rows| && j < |cols|
    requires rows[i][j].Blank?
    ensures rows[k][j].Blank?
  {
    assert |cols[j]| <= i;
  }

  /** The first index of `c` in `s`. */
  function IndexOf(s: string, c: char): (i: nat)
    requires c in s
    ensures i < |s| && s[i] == c
    ensures forall m :: 0 <= m < i ==> s[m] != c
  {
    if s[0] == c then 0
    else
      assert c in s[1..] by {
        var k :| 0 <= k < |s| && s[k] == c;
        assert s[1..][k - 1] == c;
      }
      IndexOf(s[1..], c) + 1
  }

  /** The pieces of `s` between occurrences of `c`, as Python's `s.split(c)`. */
  function Split(s: string, c: char): seq<string>
    decreases |s|
  {
    if c !in s then [s]
    else
      var i := IndexOf(s, c);
      [s[..i]] + Split(s[i + 1..], c)
  }

  /**
   * The header can be read back: splitting it at a one-character separator gives the
   * category names again, provided no name contains that character.
   */
  lemma {:induction false} HeaderRoundTrip(parts: seq<string>, c: char)
    requires |parts| > 0
    requires forall k :: 0 <= k < |parts| ==> c !in parts[k]
    ensures Split(Join(parts, [c]), c) == parts
  {
    if |parts| > 1 {
      var rest := Join(parts[1..], [c]);
      var s := parts[0] + [c] + rest;
      assert s == Join(parts, [c]);
      assert s[|parts[0]|] == c;
      assert s[..|parts[0]|] == parts[0];
      assert forall m :: 0 <= m < |parts[0]| ==> s[m] == parts[0][m];
      assert c in s;
      var i := IndexOf(s, c);
      assert i == |parts[0]|;
      assert s[i + 1..] == rest;
      HeaderRoundTrip(parts[1..], c);
    }
  }
}

=== FILE: ranking.dfy ===
/**
 * The final ranking (process_calibration): the results file is read back, each
 * error column is divided by its own maximum, the two normalised errors are
 * averaged into a combined error, and the rows are rewritten sorted by it, best first.
 */
module Ranking {
  import opened Seqs
  import opened Sorting
  import opened Trial
  import opened Scheduler
  import opened Reals
  import opened Grid

  /** One line of the results file as read back, in the file's column order. */
  datatype CalibrationRow = CalibrationRow(discountFactor: real, areaError: real, compactnessMean: real,
                                           compactnessRange: real, compactnessError: real)

  /** One line of the ranked file. */
  datatype RankedRow = RankedRow(discountFactor: real, compactnessMean: real, compactnessRange: real,
                                 areaError: real, compactnessError: real, combinedError: real)

  /** Reads the columns of a results line by position, as the unpacking load does. */
  function ParseLine(line: seq<real>): (r: CalibrationRow)
    requires |line| == 5
    ensures ResultLine(TrialResult(Combination(r.discountFactor, r.compactnessMean, r.compactnessRange),
                                   r.areaError, r.compactnessError)) == line
  {
    CalibrationRow(line[0], line[1], line[2], line[3], line[4])
  }

  /** A line written during the search reads back as the same combination and distances. */
  lemma WrittenLineReadsBack(t: TrialResult)
    ensures ParseLine(ResultLine(t)) == CalibrationRow(
      t.combination.discountFactor, t.areaDistance, t.combination.compactnessMean,
      t.combination.compactnessRange, t.compactnessDistance)
  {
  }

  function AreaErrors(rows: seq<CalibrationRow>): seq<real>
  {
    seq(|rows|, i requires 0 <= i < |rows| => rows[i].areaError)
  }

  function CompactnessErrors(rows: seq<CalibrationRow>): seq<real>
  {
    seq(|rows|, i requires 0 <= i < |rows| => rows[i].compactnessError)
  }

  /**
   * The ranking is defined when there is at least one row and neither error column
   * has a maximum of zero (a zero maximum makes the division undefined).
   */
  predicate Rankable(rows: seq<CalibrationRow>)
  {
    |rows| > 0 && Max(AreaErrors(rows)) != 0.0 && Max(CompactnessErrors(rows)) != 0.0
  }

  /**
   * Row i in the ranked layout: the parameters carried over, each error divided by
   * its column's maximum, and the two normalised errors averaged.
   */
  function NormalizeRow(rows: seq<CalibrationRow>, i: nat): (r: RankedRow)
    requires Rankable(rows) && i < |rows|
    ensures r.discountFactor == rows[i].discountFactor
    ensures r.compactnessMean == rows[i].compactnessMean && r.compactnessRange == rows[i].compactnessRange
    ensures Product(r.areaError, Max(AreaErrors(rows))) == rows[i].areaError
    ensures Product(r.compactnessError, Max(CompactnessErrors(rows))) == rows[i].compactnessError
    ensures Product(r.combinedError, 2.0) == r.areaError + r.compactnessError
  {
    var row := rows[i];
    var ma, mc := Max(AreaErrors(rows)), Max(CompactnessErrors(rows));
    var area := row.areaError / ma;
    var compact := row.compactnessError / mc;
    QuotientTimes(row.areaError, ma);
    QuotientTimes(row.compactnessError, mc);
    QuotientTimes(area + compact, 2.0);
    RankedRow(row.discountFactor, row.compactnessMean, row.compactnessRange, area, compact, (area + compact) / 2.0)
  }

  function Normalized(rows: seq<CalibrationRow>): seq<RankedRow>
    requires Rankable(rows)
  {
    seq(|rows|, i requires 0 <= i < |rows| => NormalizeRow(rows, i))
  }

  function Combined(r: RankedRow): real
  {
    r.combinedError
  }

  /**
   * process_calibration: every input row appears once, normalised and reordered
   * into the ranked column layout, and the rows are sorted by combined error, smallest first.
   */
  function ProcessCalibration(rows: seq<CalibrationRow>): (ranked: seq<RankedRow>)
    requires Rankable(rows)
    ensures |ranked| == |rows|
    ensures SortedBy(ranked, Combined)
    ensures multiset(ranked) == multiset(Normalized(rows))
  {
    SortBy(Normalized(rows), Combined)
  }

  lemma SelfRatio(m: real)
    requires m != 0.0
    ensures m / m == 1.0
  {
  }

  /** Every ranked row is the normalisation of some input row. */
  lemma RankedFromInput(rows: seq<CalibrationRow>, x: RankedRow)
    requires Rankable(rows)
    requires x in ProcessCalibration(rows)
    ensures exists i :: 0 <= i < |rows| && x == NormalizeRow(rows, i)
  {
    assert x in multiset(ProcessCalibration(rows));
    assert x in Normalized(rows);
  }

  predicate NonNegativeErrors(rows: seq<CalibrationRow>)
  {
    forall i :: 0 <= i < |rows| ==> rows[i].areaError >= 0.0 && rows[i].compactnessError >= 0.0
  }

  /** With non-negative errors, a ranked row's normalised and combined errors lie between 0 and 1. */
  lemma RankedRowBounds(rows: seq<CalibrationRow>, x: RankedRow)
    requires Rankable(rows) && NonNegativeErrors(rows)
    requires x in ProcessCalibration(rows)
    ensures 0.0 <= x.areaError <= 1.0 && 0.0 <= x.compactnessError <= 1.0 && 0.0 <= x.combinedError <= 1.0
  {
    var ma := Max(AreaErrors(rows));
    var mc := Max(CompactnessErrors(rows));
    assert ma > 0.0 by {
      assert AreaErrors(rows)[0] >= 0.0;
    }
    assert mc > 0.0 by {
      assert CompactnessErrors(rows)[0] >= 0.0;
    }
    RankedFromInput(rows, x);
    var i :| 0 <= i < |rows| && x == NormalizeRow(rows, i);
    assert AreaErrors(rows)[i] == rows[i].areaError;
    assert CompactnessErrors(rows)[i] == rows[i].compactnessError;
    RatioBounds(rows[i].areaError, ma);
    RatioBounds(rows[i].compactnessError, mc);
  }

  /**
   * With non-negative errors, every normalised error and every combined error lies
   * between 0 and 1, and each ranked row's combined error is the mean of its two
   * normalised errors.
   */
  lemma NormalizedInUnitInterval(rows: seq<CalibrationRow>)
    requires Rankable(rows) && NonNegativeErrors(rows)
    ensures forall x :: x in ProcessCalibration(rows) ==>
      && 0.0 <= x.areaError <= 1.0
      && 0.0 <= x.compactnessError <= 1.0
      && 0.0 <= x.combinedError <= 1.0
      && x.combinedError == (x.areaError + x.compactnessError) / 2.0
  {
    forall x | x in ProcessCalibration(rows)
      ensures 0.0 <= x.areaError <= 1.0 && 0.0 <= x.compactnessError <= 1.0 && 0.0 <= x.combinedError <= 1.0
      ensures x.combinedError == (x.areaError + x.compactnessError) / 2.0
    {
      RankedRowBounds(rows, x);
      RankedFromInput(rows, x);
    }
  }

  /** Every input row, normalised, has a place in the ranking. */
  lemma InRanking(rows: seq<CalibrationRow>, i: nat)
    requires Rankable(rows) && i < |rows|
    ensures NormalizeRow(rows, i) in ProcessCalibration(rows)
  {
    assert Normalized(rows)[i] == NormalizeRow(rows, i);
    assert NormalizeRow(rows, i) in multiset(Normalized(rows));
  }

  /** The position row i takes in the ranking. */
  lemma RankOf(rows: seq<CalibrationRow>, i: nat) returns (k: nat)
    requires Rankable(rows) && i < |rows|
    ensures k < |rows| && ProcessCalibration(rows)[k] == NormalizeRow(rows, i)
  {
    InRanking(rows, i);
    var ranked := ProcessCalibration(rows);
    k :| 0 <= k < |ranked| && ranked[k] == NormalizeRow(rows, i);
  }

  /** A row holding a column's maximum error gets a normalised error of exactly 1 in that column. */
  lemma MaximalRowScoresOne(rows: seq<CalibrationRow>, i: nat)
    requires Rankable(rows) && i < |rows|
    ensures NormalizeRow(rows, i) in ProcessCalibration(rows)
    ensures rows[i].areaError == Max(AreaErrors(rows)) ==> NormalizeRow(rows, i).areaError == 1.0
    ensures rows[i].compactnessError == Max(CompactnessErrors(rows)) ==> NormalizeRow(rows, i).compactnessError == 1.0
  {
    InRanking(rows, i);
    SelfRatio(Max(AreaErrors(rows)));
    SelfRatio(Max(CompactnessErrors(rows)));
  }

  /**
   * A combination that reproduced both observed distributions exactly (both
   * distances zero) comes first in the ranking, with a combined error of zero.
   */
  lemma PerfectRowRanksFirst(rows: seq<CalibrationRow>, i: nat)
    requires Rankable(rows) && NonNegativeErrors(rows) && i < |rows|
    requires rows[i].areaError == 0.0 && rows[i].compactnessError == 0.0
    ensures ProcessCalibration(rows)[0].combinedError == 0.0
  {
    var ranked := ProcessCalibration(rows);
    var k := RankOf(rows, i);
    ZeroErrorsNormalizeToZero(rows, i);
    RankedRowBounds(rows, ranked[0]);
    SmallestFirst(ranked, Combined, k);
  }

  /** Zero errors stay zero when normalised. */
  lemma ZeroErrorsNormalizeToZero(rows: seq<CalibrationRow>, i: nat)
    requires Rankable(rows) && i < |rows|
    requires rows[i].areaError == 0.0 && rows[i].compactnessError == 0.0
    ensures Combined(NormalizeRow(rows, i)) == 0.0
  {
  }
}

=== FILE: reals.dfy ===
/** Small facts of real arithmetic, kept behind named functions so the solver does not wander. */
module Reals {
  /** The product of two reals. */
  function Product(a: real, b: real): real
  {
    a * b
  }

  /** The square of a real. */
  function Square(d: real): real
  {
    Product(d, d)
  }

  lemma ProductPositive(a: real, b: real)
    requires a > 0.0 && b > 0.0
    ensures Product(a, b) > 0.0
  {
  }

  lemma ProductNegative(a: real, b: real)
    requires a < 0.0 && b > 0.0
    ensures Product(a, b) < 0.0
  {
  }

  /** A square is non-negative, zero only at zero, and the same for `d` and `-d`. */
  lemma SquareFacts(d: real)
    ensures Square(d) >= 0.0
    ensures Square(d) == 0.0 <==> d == 0.0
    ensures Square(d) == Square(-d)
  {
    if d > 0.0 {
      ProductPositive(d, d);
    } else if d < 0.0 {
      ProductPositive(-d, -d);
    }
  }

  /** A non-negative numerator over a positive denominator gives a non-negative quotient, zero only for a zero numerator. */
  lemma QuotientFacts(a: real, y: real)
    requires a >= 0.0 && y > 0.0
    ensures a / y >= 0.0
    ensures a / y == 0.0 <==> a == 0.0
  {
    var q := a / y;
    assert q * y == a;
    if q < 0.0 {
      ProductNegative(q, y);
    }
  }

  /** Dividing by a non-zero value and multiplying back gives the value again. */
  lemma QuotientTimes(a: real, m: real)
    requires m != 0.0
    ensures Product(a / m, m) == a
  {
  }

  /** A value between zero and a positive bound, divided by the bound, lies in [0, 1]. */
  lemma RatioBounds(a: real, m: real)
    requires 0.0 <= a <= m && m > 0.0
    ensures 0.0 <= a / m <= 1.0
  {
    var q := a / m;
    assert q * m == a;
    if q > 1.0 {
      ProductPositive(q - 1.0, m);
    } else if q < 0.0 {
      ProductPositive(-q, m);
    }
  }

  /** Dividing a total by a count of at least one and multiplying back recovers the total. */
  lemma MeanFacts(total: real, n: real)
    requires n >= 1.0
    ensures Product(total / n, n) == total
    ensures total >= 0.0 ==> total / n >= 0.0
  {
    if total > 0.0 {
      QuotientFacts(total, n);
    }
  }
}

=== FILE: scheduler.dfy ===
/**
 * The calibration search loop of main: every grid combination is launched in
 * enumeration order with the next value of the seed counter; combinations run in
 * batches of `nprocs`, and after each batch the successful results are written to
 * the results file in launch order and flushed, while failed combinations are skipped.
 * The worker processes are joined and read in launch order, so the batch loop is
 * modelled sequentially.
 */
module Scheduler {
  import opened Options
  import opened Seqs
  import opened Grid
  import opened Trial

  /** The numbers written to the results file for one combination, in written order. */
  function ResultLine(t: TrialResult): (line: seq<real>)
    ensures |line| == 5
  {
    [t.combination.discountFactor, t.areaDistance, t.combination.compactnessMean,
     t.combination.compactnessRange, t.compactnessDistance]
  }

  /** The lines a sequence of combination results contributes to the file: failures are skipped. */
  function Written(rs: seq<Option<TrialResult>>): (lines: seq<seq<real>>)
    ensures |lines| <= |rs|
    ensures forall l :: l in lines ==> exists k :: 0 <= k < |rs| && rs[k].Some? && l == ResultLine(rs[k].value)
  {
    if |rs| == 0 then []
    else
      var n := |rs| - 1;
      var prev := Written(rs[..n]);
      assert forall k :: 0 <= k < n ==> rs[..n][k] == rs[k];
      prev + (if rs[n].Some? then [ResultLine(rs[n].value)] else [])
  }

  /**
   * The lines written are the successful results, in order and in full: one line
   * per successful combination and none for a failed one.
   */
  lemma {:induction false} WrittenContents(rs: seq<Option<TrialResult>>)
    ensures |Written(rs)| <= |rs|
    ensures (forall k :: 0 <= k < |rs| ==> rs[k].Some?) ==>
      |Written(rs)| == |rs| && forall k :: 0 <= k < |rs| ==> Written(rs)[k] == ResultLine(rs[k].value)
    ensures (forall k :: 0 <= k < |rs| ==> rs[k].None?) ==> Written(rs) == []
  {
    if |rs| > 0 {
      var n := |rs| - 1;
      WrittenContents(rs[..n]);
    }
  }

  lemma {:induction false} WrittenConcat(a: seq<Option<TrialResult>>, b: seq<Option<TrialResult>>)
    ensures Written(a + b) == Written(a) + Written(b)
    decreases |b|
  {
    if |b| == 0 {
      assert a + b == a;
    } else {
      var n := |b| - 1;
      WrittenConcat(a, b[..n]);
      assert (a + b)[..|a + b| - 1] == a + b[..n];
    }
  }

  /** Writing batch by batch writes the same lines as writing all results at once. */
  lemma {:induction false} WrittenFlatten(batches: seq<seq<Option<TrialResult>>>, flushed: seq<seq<seq<real>>>)
    requires |flushed| == |batches|
    requires forall b :: 0 <= b < |batches| ==> flushed[b] == Written(batches[b])
    ensures Flatten(flushed) == Written(Flatten(batches))
  {
    if |batches| > 0 {
      var n := |batches| - 1;
      WrittenFlatten(batches[..n], flushed[..n]);
      WrittenConcat(Flatten(batches[..n]), batches[n]);
    }
  }

  /** The result of every combination, the k-th (0-based) run with seed counter randomSeed + k. */
  function Results(sim: Simulator, combos: seq<Combination>, repeat: int, randomSeed: int, obs: Observed): (rs: seq<Option<TrialResult>>)
    requires repeat != 0
    requires Conforms(sim, obs)
    ensures |rs| == |combos|
  {
    seq(|combos|, k requires 0 <= k < |combos| => CombinationResult(sim, combos[k], repeat, randomSeed + k, obs))
  }

  /** Reads one finished batch in launch order and collects the lines to write. */
  method CollectBatch(pending: seq<Option<TrialResult>>) returns (lines: seq<seq<real>>)
    ensures lines == Written(pending)
  {
    lines := [];
    var j := 0;
    while j < |pending|
      invariant 0 <= j <= |pending|
      invariant lines == Written(pending[..j])
    {
      assert pending[..j + 1][..j] == pending[..j];
      if pending[j].Some? {
        lines := lines + [ResultLine(pending[j].value)];
      }
      j := j + 1;
    }
    assert pending[..j] == pending;
  }

  /**
   * The batch sizes the loop produces: no batch is empty; with `nprocs` of at least 1,
   * none holds more than `nprocs` and every one but the last (once the grid is
   * exhausted) holds exactly `nprocs`; with a smaller `nprocs` only the end of the
   * grid closes a batch.
   */
  ghost predicate BatchShape(batches: seq<seq<Option<TrialResult>>>, nprocs: int, done: bool)
  {
    && (forall b :: 0 <= b < |batches| ==> |batches[b]| > 0)
    && (nprocs >= 1 ==> forall b :: 0 <= b < |batches| ==> |batches[b]| <= nprocs)
    && (nprocs >= 1 ==> forall b :: 0 <= b < |batches| ==> |batches[b]| == nprocs || (b == |batches| - 1 && done))
    && (nprocs < 1 ==> |batches| == 0 || (|batches| == 1 && done))
  }

  /** Each flush writes the successful results of its own batch. */
  ghost predicate FlushesMatch(batches: seq<seq<Option<TrialResult>>>, flushed: seq<seq<seq<real>>>)
  {
    |flushed| == |batches| && forall b :: 0 <= b < |batches| ==> flushed[b] == Written(batches[b])
  }

  lemma CloseBatch(batches: seq<seq<Option<TrialResult>>>, flushed: seq<seq<seq<real>>>,
                   pending: seq<Option<TrialResult>>, lines: seq<seq<real>>, nprocs: int, done: bool)
    requires BatchShape(batches, nprocs, false) && FlushesMatch(batches, flushed)
    requires |pending| > 0 && lines == Written(pending)
    requires nprocs >= 1 ==> |pending| <= nprocs
    requires |pending| == nprocs || done
    ensures BatchShape(batches + [pending], nprocs, done)
    ensures FlushesMatch(batches + [pending], flushed + [lines])
  {
  }

  /** Closing a batch moves the pending results to the end of the closed ones. */
  lemma FlattenClose<T>(batches: seq<seq<T>>, pending: seq<T>)
    ensures Flatten(batches + [pending]) == Flatten(batches) + pending
  {
    FlattenAppend(batches, pending);
  }

  /** The first `count` results are the closed batches followed by the pending ones. */
  ghost predicate Launched<T>(batches: seq<seq<T>>, pending: seq<T>, results: seq<T>, count: nat)
    requires count <= |results|
  {
    Flatten(batches) + pending == results[..count]
  }

  /** Launching the next combination extends the launched prefix by its result. */
  lemma LaunchNext<T>(batches: seq<seq<T>>, pending: seq<T>, results: seq<T>, count: nat)
    requires count < |results| && Launched(batches, pending, results, count)
    ensures Launched(batches, pending + [results[count]], results, count + 1)
  {
    assert results[..count + 1] == results[..count] + [results[count]];
  }

  /** Closing the pending batch keeps the launched prefix. */
  lemma LaunchedClose<T>(batches: seq<seq<T>>, pending: seq<T>, results: seq<T>, count: nat)
    requires count <= |results| && Launched(batches, pending, results, count)
    ensures Launched(batches + [pending], [], results, count)
  {
    FlattenClose(batches, pending);
    assert Flatten(batches + [pending]) + [] == Flatten(batches + [pending]);
  }

  /**
   * The search phase. `batches` holds the results of each batch in launch order
   * and `flushed` the lines written at the end of each batch. Concatenated, the
   * batches are the results of the whole grid in enumeration order; every batch but
   * the last holds exactly `nprocs` combinations (with `nprocs` below 1 there is a
   * single batch); and each flush writes that batch's successful results, so the file
   * ends up holding every successful result in enumeration order.
   */
  method Calibrate(sim: Simulator, means: seq<real>, ranges: seq<real>, factors: seq<real>,
                   repeat: int, randomSeed: int, nprocs: int, obs: Observed)
    returns (batches: seq<seq<Option<TrialResult>>>, flushed: seq<seq<seq<real>>>)
    requires repeat != 0
    requires Conforms(sim, obs)
    ensures Flatten(batches) == Results(sim, Enumerate(means, ranges, factors), repeat, randomSeed, obs)
    ensures |flushed| == |batches|
    ensures forall b :: 0 <= b < |batches| ==> flushed[b] == Written(batches[b])
    ensures Flatten(flushed) == Written(Results(sim, Enumerate(means, ranges, factors), repeat, randomSeed, obs))
    ensures BatchShape(batches, nprocs, true)
  {
    var combos := Enumerate(means, ranges, factors);
    ghost var results := Results(sim, combos, repeat, randomSeed, obs);
    var numAll := |combos|;
    var seed := randomSeed;
    var count := 0;
    var pending: seq<Option<TrialResult>> := [];
    batches := [];
    flushed := [];
    while count < numAll
      invariant 0 <= count <= numAll
      invariant seed == randomSeed + count
      invariant Launched(batches, pending, results, count)
      invariant FlushesMatch(batches, flushed)
      invariant BatchShape(batches, nprocs, count == numAll)
      invariant nprocs >= 1 ==> |pending| < nprocs
      invariant count == numAll ==> pending == []
    {
      var r, _ := RunOneCombination(sim, combos[count], repeat, seed, obs);
      assert r == results[count];
      LaunchNext(batches, pending, results, count);
      pending := pending + [r];
      count := count + 1;
      seed := seed + 1;
      if |pending| == nprocs || count == numAll {
        var lines := CollectBatch(pending);
        CloseBatch(batches, flushed, pending, lines, nprocs, count == numAll);
        LaunchedClose(batches, pending, results, count);
        batches := batches + [pending];
        flushed := flushed + [lines];
        pending := [];
      }
    }
    assert Flatten(batches) + [] == Flatten(batches);
    assert results[..count] == results;
    WrittenFlatten(batches, flushed);
  }
}

=== FILE: seqs.dfy ===
/** Sums, maxima and flattening over sequences, used by several components. */
module Seqs {

  /** Sum of a sequence of reals, accumulated from the left. */
  function Sum(xs: seq<real>): real
  {
    if |xs| == 0 then 0.0 else Sum(xs[..|xs| - 1]) + xs[|xs| - 1]
  }

  lemma {:induction false} SumAppend(xs: seq<real>, x: real)
    ensures Sum(xs + [x]) == Sum(xs) + x
  {
    assert (xs + [x])[..|xs + [x]| - 1] == xs;
  }

  /** The sum of non-negative values is non-negative. */
  lemma {:induction false} SumNonNegative(xs: seq<real>)
    requires forall i :: 0 <= i < |xs| ==> xs[i] >= 0.0
    ensures Sum(xs) >= 0.0
  {
    if |xs| > 0 {
      SumNonNegative(xs[..|xs| - 1]);
    }
  }

  /** The largest element of a non-empty sequence (numpy's `max`). */
  function Max(xs: seq<real>): (m: real)
    requires |xs| > 0
    ensures forall i :: 0 <= i < |xs| ==> xs[i] <= m
    ensures exists i :: 0 <= i < |xs| && xs[i] == m
  {
    if |xs| == 1 then xs[0]
    else
      var rest := Max(xs[1..]);
      assert forall i :: 1 <= i < |xs| ==> xs[i] == xs[1..][i - 1];
      if xs[0] >= rest then xs[0] else rest
  }

  /** The largest length among a non-empty sequence of sequences. */
  function MaxLength<T>(xss: seq<seq<T>>): (m: nat)
    requires |xss| > 0
    ensures forall i :: 0 <= i < |xss| ==> |xss[i]| <= m
    ensures exists i :: 0 <= i < |xss| && |xss[i]| == m
  {
    if |xss| == 1 then |xss[0]|
    else
      var rest := MaxLength(xss[1..]);
      assert forall i :: 1 <= i < |xss| ==> xss[i] == xss[1..][i - 1];
      if |xss[0]| >= rest then |xss[0]| else rest
  }

  /** Concatenation of a sequence of sequences, in order. */
  function Flatten<T>(xss: seq<seq<T>>): seq<T>
  {
    if |xss| == 0 then [] else Flatten(xss[..|xss| - 1]) + xss[|xss| - 1]
  }

  lemma {:induction false} FlattenAppend<T>(xss: seq<seq<T>>, xs: seq<T>)
    ensures Flatten(xss + [xs]) == Flatten(xss) + xs
  {
    assert (xss + [xs])[..|xss + [xs]| - 1] == xss;
  }

  lemma AppendAssociative<T>(a: seq<T>, b: seq<T>, c: seq<T>)
    ensures (a + b) + c == a + (b + c)
  {
  }
}

=== FILE: sorting.dfy ===
/** Ascending sort by a real-valued key, as numpy's `sort` and `argsort` are used. */
module Sorting {

  /** Keys never decrease from left to right. */
  ghost predicate SortedBy<T>(xs: seq<T>, key: T -> real)
  {
    forall i, j :: 0 <= i < j < |xs| ==> key(xs[i]) <= key(xs[j])
  }

  /** Inserts `x` into an already sorted sequence, after every element of equal key. */
  function Insert<T>(x: T, xs: seq<T>, key: T -> real): (r: seq<T>)
    requires SortedBy(xs, key)
    ensures SortedBy(r, key)
    ensures multiset(r) == multiset(xs) + multiset{x}
    ensures |r| == |xs| + 1
  {
    if |xs| == 0 then [x]
    else if key(x) < key(xs[0]) then [x] + xs
    else
      var rest := Insert(x, xs[1..], key);
      KeepHead(x, xs, rest, key);
      [xs[0]] + rest
  }

  /** The head of a sorted sequence stays in front when a larger key is inserted behind it. */
  lemma KeepHead<T>(x: T, xs: seq<T>, rest: seq<T>, key: T -> real)
    requires |xs| > 0 && SortedBy(xs, key) && key(xs[0]) <= key(x)
    requires SortedBy(rest, key) && multiset(rest) == multiset(xs[1..]) + multiset{x}
    ensures SortedBy([xs[0]] + rest, key)
    ensures multiset([xs[0]] + rest) == multiset(xs) + multiset{x}
  {
    assert xs == [xs[0]] + xs[1..];
    forall k | 0 <= k < |rest|
      ensures key(xs[0]) <= key(rest[k])
    {
      assert rest[k] in multiset(rest);
      if rest[k] != x {
        assert rest[k] in multiset(xs[1..]);
        var j :| 0 <= j < |xs[1..]| && xs[1..][j] == rest[k];
        assert xs[j + 1] == rest[k];
      }
    }
    var r := [xs[0]] + rest;
    forall i, j | 0 <= i < j < |r|
      ensures key(r[i]) <= key(r[j])
    {
      if i > 0 {
        assert r[i] == rest[i - 1] && r[j] == rest[j - 1];
      } else {
        assert r[j] == rest[j - 1];
      }
    }
  }

  /** Insertion sort: a sorted permutation of `xs`. */
  function SortBy<T>(xs: seq<T>, key: T -> real): (r: seq<T>)
    ensures SortedBy(r, key)
    ensures multiset(r) == multiset(xs)
    ensures |r| == |xs|
  {
    if |xs| == 0 then []
    else
      assert xs == xs[..|xs| - 1] + [xs[|xs| - 1]];
      Insert(xs[|xs| - 1], SortBy(xs[..|xs| - 1], key), key)
  }

  /** The first element of a sorted sequence has the smallest key. */
  lemma SmallestFirst<T>(xs: seq<T>, key: T -> real, k: nat)
    requires SortedBy(xs, key) && k < |xs|
    ensures key(xs[0]) <= key(xs[k])
  {
    if k > 0 {
      assert 0 < k < |xs|;
    }
  }
}

=== FILE: strds.dfy ===
/**
 * The naming rules of v.what.strds: the day label of a sample, the name and SQL
 * type of the attribute column each sampled raster map is written to, and the
 * treatment of a blank `where` option.
 */
module Strds {
  import opened Options

  /** A sample's start or end time as it prints: a timestamp text, or Python's `None`. */
  datatype Moment = Unset | At(text: string)

  /** One sample: its time interval, the raster maps sampled at it, and the dataset name. */
  datatype Sample = Sample(start: Moment, end: Moment, rasterNames: seq<string>, strdsName: Option<string>)

  /** What a moment prints as: `str(None)` is "None". */
  function MomentText(m: Moment): string
  {
    match m
    case Unset => "None"
    case At(t) => t
  }

  /** What the dataset name prints as inside the column name. */
  function NameText(n: Option<string>): string
  {
    match n
    case None => "None"
    case Some(t) => t
  }

  /** Sample.__init__: a missing list of raster names becomes the empty list. */
  function NewSample(start: Moment, end: Moment, rasterNames: Option<seq<string>>, strdsName: Option<string>): (s: Sample)
    ensures s.start == start && s.end == end && s.strdsName == strdsName
    ensures rasterNames.None? ==> s.rasterNames == []
    ensures rasterNames.Some? ==> s.rasterNames == rasterNames.value
  {
    Sample(start, end, if rasterNames.Some? then rasterNames.value else [], strdsName)
  }

  /** The text before the first occurrence of `c` (all of it if there is none), as `s.split(c)[0]`. */
  function BeforeFirst(s: string, c: char): (r: string)
    ensures |r| <= |s| && r == s[..|r|]
    ensures c !in r
    ensures |r| < |s| ==> s[|r|] == c
  {
    if |s| == 0 || s[0] == c then ""
    else
      var rest := BeforeFirst(s[1..], c);
      assert s[..|rest| + 1] == [s[0]] + s[1..][..|rest|];
      [s[0]] + rest
  }

  /** Every occurrence of `from` replaced by `to`, as `s.replace(from, to)` on single characters. */
  function ReplaceChar(s: string, from: char, to: char): (r: string)
    ensures |r| == |s|
    ensures forall i :: 0 <= i < |s| ==> r[i] == if s[i] == from then to else s[i]
    ensures from != to ==> from !in r
  {
    seq(|s|, i requires 0 <= i < |s| => if s[i] == from then to else s[i])
  }

  /**
   * The day label of a timestamp text: its date part (up to the first space), with
   * every '-' turned into '_'. The label has no space and no '-', is exactly as long
   * as the date part, and agrees with the timestamp everywhere else.
   */
  function Day(t: string): (d: string)
    ensures |d| <= |t|
    ensures ' ' !in d && '-' !in d
    ensures forall i :: 0 <= i < |d| ==> t[i] != ' ' && d[i] == if t[i] == '-' then '_' else t[i]
    ensures |d| < |t| ==> t[|d|] == ' '
  {
    var date := BeforeFirst(t, ' ');
    var d := ReplaceChar(date, '-', '_');
    assert forall i :: 0 <= i < |date| ==> date[i] == t[i];
    d
  }

  /** The only message printDay fails with. */
  const PrintDayError: string := "The values accepted by printDay in Sample are: 'start', 'end'"

  /** Sample.printDay: the day label of the start or end time; any other choice is fatal. */
  function PrintDay(s: Sample, date: string): (r: Result<string>)
    ensures date == "start" ==> r == Ok(Day(MomentText(s.start)))
    ensures date == "end" ==> r == Ok(Day(MomentText(s.end)))
    ensures date != "start" && date != "end" ==> r == Fatal(PrintDayError)
    ensures r.Ok? ==> ' ' !in r.value && '-' !in r.value
  {
    if date == "start" then Ok(Day(MomentText(s.start)))
    else if date == "end" then Ok(Day(MomentText(s.end)))
    else Fatal(PrintDayError)
  }

  /** A text whose first `c` sits at index `k` splits there. */
  lemma BeforeFirstAt(s: string, c: char, k: nat)
    requires k < |s| && s[k] == c
    requires forall i :: 0 <= i < k ==> s[i] != c
    ensures BeforeFirst(s, c) == s[..k]
  {
  }

  /**
   * The label of a "date time" timestamp depends on the date alone: the time of day
   * after the first space is dropped.
   */
  lemma DayDropsTime(date: string, time: string)
    requires ' ' !in date
    ensures Day(date + " " + time) == ReplaceChar(date, '-', '_')
  {
    var t := date + " " + time;
    assert forall i :: 0 <= i < |date| ==> t[i] == date[i];
    BeforeFirstAt(t, ' ', |date|);
    assert t[..|date|] == date;
  }

  /** The SQL type of the column a raster map's values go to: integer maps get INT. */
  function ColumnType(mapType: string): (t: string)
    ensures t == "INT" <==> mapType == "CELL"
    ensures t != "INT" ==> t == "DOUBLE PRECISION"
  {
    if mapType == "CELL" then "INT" else "DOUBLE PRECISION"
  }

  /** The column name: the dataset name, '_', and the sample's start day. */
  function ColumnName(s: Sample): (name: string)
    ensures name == NameText(s.strdsName) + "_" + Day(MomentText(s.start))
    ensures PrintDay(s, "start").Ok? && name[|NameText(s.strdsName)| + 1..] == PrintDay(s, "start").value
  {
    var day := PrintDay(s, "start").value;
    var name := NameText(s.strdsName) + "_" + day;
    assert name[|NameText(s.strdsName)| + 1..] == day;
    name
  }

  /**
   * The column definition handed to v.db.addcolumn: the name, a space and the type.
   * The dots the source means to replace stay, since the replaced string is discarded.
   */
  function ColumnString(name: string, coltype: string): (def: string)
    ensures |def| == |name| + 1 + |coltype|
    ensures def[..|name|] == name && def[|name|] == ' ' && def[|name| + 1..] == coltype
    ensures forall i :: 0 <= i < |name| ==> (def[i] == '.' <==> name[i] == '.')
  {
    name + " " + coltype
  }

  /** The discarded replacement leaves a dot of the dataset name in the column definition. */
  lemma DotSurvivesInColumnString()
    ensures '.' in ColumnString("precip.daily_2001_01_01", ColumnType("FCELL"))
  {
    var def := ColumnString("precip.daily_2001_01_01", ColumnType("FCELL"));
    assert def[6] == '.';
  }

  /**
   * The evidently intended column definition: the same text with every dot turned
   * into '_'. It has no dot, and equals the definition built from the sanitised name.
   */
  function SanitizedColumnString(name: string, coltype: string): (def: string)
    ensures '.' !in def
    ensures |def| == |name| + 1 + |coltype|
    ensures '.' !in coltype ==> def == ReplaceChar(name, '.', '_') + " " + coltype
  {
    var def := ReplaceChar(ColumnString(name, coltype), '.', '_');
    assert '.' !in coltype ==> def == ReplaceChar(name, '.', '_') + " " + coltype;
    def
  }

  /** A column to add and fill: its name and its definition. */
  datatype ColumnSpec = ColumnSpec(name: string, definition: string)

  /**
   * The column a map of the given type from this sample is written to, with the
   * dots of the column name turned into '_' in both the definition and the name the
   * values are written under: the name is the dataset name and the start day, and
   * only the type follows the map.
   */
  function SampleColumn(s: Sample, mapType: string): (col: ColumnSpec)
    ensures col.name == ReplaceChar(ColumnName(s), '.', '_')
    ensures '.' !in col.name && '.' !in col.definition
    ensures col.definition == col.name + " " + ColumnType(mapType)
  {
    var name := ReplaceChar(ColumnName(s), '.', '_');
    var coltype := ColumnType(mapType);
    assert '.' !in coltype by {
      if coltype == "INT" {
        assert coltype == ['I', 'N', 'T'];
      }
    }
    ColumnSpec(name, SanitizedColumnString(ColumnName(s), coltype))
  }

  /**
   * The column the source adds and fills for a map of the given type from this
   * sample: the unsanitised column name, and a definition that keeps that name's
   * dots in front of a space and the map's type.
   */
  function SampleColumnAsWritten(s: Sample, mapType: string): (col: ColumnSpec)
    ensures col.name == ColumnName(s)
    ensures |col.definition| == |col.name| + 1 + |ColumnType(mapType)|
    ensures col.definition[..|col.name|] == col.name && col.definition[|col.name| + 1..] == ColumnType(mapType)
    ensures forall i :: 0 <= i < |col.name| ==> (col.definition[i] == '.' <==> col.name[i] == '.')
  {
    ColumnSpec(ColumnName(s), ColumnString(ColumnName(s), ColumnType(mapType)))
  }

  /** A name without '.' is left alone by the replacement. */
  lemma ReplaceAbsent(name: string)
    requires '.' !in name
    ensures ReplaceChar(name, '.', '_') == name
  {
  }

  /**
   * The column the source writes agrees with the sanitised one exactly when the
   * column name has no dot.
   */
  lemma AsWrittenColumnIffNoDot(s: Sample, mapType: string)
    ensures SampleColumnAsWritten(s, mapType) == SampleColumn(s, mapType) <==> '.' !in ColumnName(s)
  {
    var name := ColumnName(s);
    if '.' !in name {
      ReplaceAbsent(name);
    }
  }

  /** The columns one sample's raster maps are written to by the source, in raster order. */
  function SampleColumnsAsWritten(s: Sample, datatypeOf: string -> string): (cols: seq<ColumnSpec>)
    ensures |cols| == |s.rasterNames|
    ensures forall k :: 0 <= k < |cols| ==> cols[k] == SampleColumnAsWritten(s, datatypeOf(s.rasterNames[k]))
  {
    seq(|s.rasterNames|, k requires 0 <= k < |s.rasterNames| => SampleColumnAsWritten(s, datatypeOf(s.rasterNames[k])))
  }

  /** The sanitised columns one sample's raster maps are written to, in raster order. */
  function SampleColumns(s: Sample, datatypeOf: string -> string): (cols: seq<ColumnSpec>)
    ensures |cols| == |s.rasterNames|
    ensures forall k :: 0 <= k < |cols| ==> cols[k] == SampleColumn(s, datatypeOf(s.rasterNames[k]))
  {
    seq(|s.rasterNames|, k requires 0 <= k < |s.rasterNames| => SampleColumn(s, datatypeOf(s.rasterNames[k])))
  }

  /** A `where` of "", " " or a newline means no condition; any other text is kept. */
  function NormalizeWhere(w: string): (r: Option<string>)
    ensures r.None? <==> w == "" || w == " " || w == "\n"
    ensures r.Some? ==> r.value == w && |w| > 0
  {
    if w == "" || w == " " || w == "\n" then None else Some(w)
  }
}

=== FILE: trial.dfy ===
/**
 * One combination's repeated trials (run_one_combination): each repeat runs the
 * external simulation with its own seed and scores the simulated patch histograms
 * against the observed ones; the combination's distances are the means over the
 * repeats, and a single failed simulation abandons the whole combination.
 */
module Trial {
  import opened Options
  import opened Seqs
  import opened Grid
  import opened Histogram
  import opened Reals

  /**
   * What the external tools yield for one simulation run: the simulation failed,
   * or the area and compactness histograms of the simulated patches, binned like
   * the observed ones.
   */
  datatype SimOutcome = SimulationFailed | Simulated(areaHistogram: seq<real>, compactnessHistogram: seq<real>)

  /** The simulation, patch analysis and histogram binning, as a function of the parameters and the seed. */
  type Simulator = (Combination, int) -> SimOutcome

  /** The observed area and compactness histograms every trial is scored against. */
  datatype Observed = Observed(area: seq<real>, compactness: seq<real>)

  /** The distances of one repeat, or the averaged distances of a combination. */
  datatype Distances = Distances(area: real, compactness: real)

  /** A successful combination: its parameters and its mean distances. */
  datatype TrialResult = TrialResult(combination: Combination, areaDistance: real, compactnessDistance: real)

  /**
   * Both observed histograms have a non-empty bin, and every simulated histogram is
   * binned like the observed one it is compared with.
   */
  ghost predicate Conforms(sim: Simulator, obs: Observed)
  {
    && Informative(obs.area) && Informative(obs.compactness)
    && forall c, s :: sim(c, s).Simulated? ==>
      Comparable(obs.area, sim(c, s).areaHistogram) &&
      Comparable(obs.compactness, sim(c, s).compactnessHistogram)
  }

  /** The distances of one successful repeat (compare_histograms, observed first). */
  function Score(obs: Observed, out: SimOutcome): (d: Distances)
    requires out.Simulated?
    requires Comparable(obs.area, out.areaHistogram) && Comparable(obs.compactness, out.compactnessHistogram)
    requires Informative(obs.area) && Informative(obs.compactness)
    ensures d.area >= 0.0 && d.compactness >= 0.0
  {
    InformativeNeverMasked(obs.area, out.areaHistogram);
    InformativeNeverMasked(obs.compactness, out.compactnessHistogram);
    Distances(CompareHistograms(obs.area, out.areaHistogram).value,
              CompareHistograms(obs.compactness, out.compactnessHistogram).value)
  }

  /** A repeat scores zero in a histogram exactly when it reproduces the observed one. */
  lemma ScoreZeroIffReproduced(obs: Observed, out: SimOutcome)
    requires out.Simulated?
    requires Comparable(obs.area, out.areaHistogram) && Comparable(obs.compactness, out.compactnessHistogram)
    requires Informative(obs.area) && Informative(obs.compactness)
    ensures Score(obs, out).area == 0.0 <==> out.areaHistogram == obs.area
    ensures Score(obs, out).compactness == 0.0 <==> out.compactnessHistogram == obs.compactness
  {
    DistanceZeroIffEqual(obs.area, out.areaHistogram);
    DistanceZeroIffEqual(obs.compactness, out.compactnessHistogram);
  }

  function AreaOf(ds: seq<Distances>): seq<real>
  {
    seq(|ds|, i requires 0 <= i < |ds| => ds[i].area)
  }

  function CompactnessOf(ds: seq<Distances>): seq<real>
  {
    seq(|ds|, i requires 0 <= i < |ds| => ds[i].compactness)
  }

  /** The distances of repeats 0 .. n - 1 in order, or None as soon as one of them fails. */
  function Repeats(sim: Simulator, comb: Combination, seed: int, obs: Observed, n: nat): Option<seq<Distances>>
    requires Conforms(sim, obs)
  {
    if n == 0 then Some([])
    else
      match Repeats(sim, comb, seed, obs, n - 1)
      case None => None
      case Some(ds) =>
        var out := sim(comb, TrialSeed(seed, n - 1));
        if out.SimulationFailed? then None else Some(ds + [Score(obs, out)])
  }

  /** How many repeats `range(repeat)` runs. */
  function RepeatCount(repeat: int): nat
  {
    if repeat > 0 then repeat else 0
  }

  /**
   * The combination's result: None if any repeat's simulation fails, otherwise the
   * per-repeat distances summed and divided by `repeat`.
   */
  function CombinationResult(sim: Simulator, comb: Combination, repeat: int, seed: int, obs: Observed): (r: Option<TrialResult>)
    requires repeat != 0
    requires Conforms(sim, obs)
    ensures r.Some? ==> r.value.combination == comb
    ensures repeat < 0 ==> r == Some(TrialResult(comb, 0.0, 0.0))
  {
    match Repeats(sim, comb, seed, obs, RepeatCount(repeat))
    case None => None
    case Some(ds) => Some(TrialResult(comb, Sum(AreaOf(ds)) / repeat as real, Sum(CompactnessOf(ds)) / repeat as real))
  }

  /** Repeats that succeed are the scores of the simulations run with seeds seed * 10000 + i, in order. */
  lemma {:induction false} RepeatsContents(sim: Simulator, comb: Combination, seed: int, obs: Observed, n: nat)
    requires Conforms(sim, obs)
    ensures Repeats(sim, comb, seed, obs, n).Some? <==>
      forall i :: 0 <= i < n ==> sim(comb, TrialSeed(seed, i)).Simulated?
    ensures Repeats(sim, comb, seed, obs, n).Some? ==>
      var ds := Repeats(sim, comb, seed, obs, n).value;
      |ds| == n && forall i :: 0 <= i < n ==> ds[i] == Score(obs, sim(comb, TrialSeed(seed, i)))
  {
    if n > 0 {
      RepeatsContents(sim, comb, seed, obs, n - 1);
      var out := sim(comb, TrialSeed(seed, n - 1));
      match Repeats(sim, comb, seed, obs, n - 1)
      case None =>
        assert Repeats(sim, comb, seed, obs, n).None?;
      case Some(ds) =>
        if out.SimulationFailed? {
          assert Repeats(sim, comb, seed, obs, n).None?;
        } else {
          var all := ds + [Score(obs, out)];
          assert Repeats(sim, comb, seed, obs, n) == Some(all);
          assert forall i :: 0 <= i < n - 1 ==> all[i] == ds[i];
        }
    }
  }

  /**
   * A combination fails exactly when the simulation fails for one of its repeats;
   * no partial average is ever reported.
   */
  lemma FailsIffSomeRepeatFails(sim: Simulator, comb: Combination, repeat: int, seed: int, obs: Observed)
    requires repeat != 0
    requires Conforms(sim, obs)
    ensures CombinationResult(sim, comb, repeat, seed, obs).None? <==>
      exists i :: 0 <= i < repeat && sim(comb, TrialSeed(seed, i)).SimulationFailed?
  {
    RepeatsContents(sim, comb, seed, obs, RepeatCount(repeat));
  }

  /**
   * A successful combination keeps its parameters, and its distances are the
   * per-repeat distances averaged over `repeat`: non-negative, and zero when every
   * repeat reproduces the observed histograms exactly.
   */
  lemma {:induction false} ResultIsMean(sim: Simulator, comb: Combination, repeat: int, seed: int, obs: Observed)
    requires repeat >= 1
    requires Conforms(sim, obs)
    requires CombinationResult(sim, comb, repeat, seed, obs).Some?
    ensures var r := CombinationResult(sim, comb, repeat, seed, obs).value;
      var ds := Repeats(sim, comb, seed, obs, repeat).value;
      && r.combination == comb
      && |ds| == repeat
      && Product(r.areaDistance, repeat as real) == Sum(AreaOf(ds))
      && Product(r.compactnessDistance, repeat as real) == Sum(CompactnessOf(ds))
      && r.areaDistance >= 0.0 && r.compactnessDistance >= 0.0
  {
    RepeatsContents(sim, comb, seed, obs, repeat);
    var ds := Repeats(sim, comb, seed, obs, repeat).value;
    var sa, sc := Sum(AreaOf(ds)), Sum(CompactnessOf(ds));
    assert CombinationResult(sim, comb, repeat, seed, obs).value
      == TrialResult(comb, sa / repeat as real, sc / repeat as real);
    assert sa >= 0.0 by {
      assert forall i :: 0 <= i < |ds| ==> AreaOf(ds)[i] >= 0.0;
      SumNonNegative(AreaOf(ds));
    }
    assert sc >= 0.0 by {
      assert forall i :: 0 <= i < |ds| ==> CompactnessOf(ds)[i] >= 0.0;
      SumNonNegative(CompactnessOf(ds));
    }
    MeanFacts(sa, repeat as real);
    MeanFacts(sc, repeat as real);
  }

  /** When every repeat reproduces the observed histograms, both mean distances are zero. */
  lemma {:induction false} PerfectReproductionScoresZero(sim: Simulator, comb: Combination, repeat: int, seed: int, obs: Observed)
    requires repeat >= 1
    requires Conforms(sim, obs)
    requires forall i :: 0 <= i < repeat ==>
      sim(comb, TrialSeed(seed, i)) == Simulated(obs.area, obs.compactness)
    ensures CombinationResult(sim, comb, repeat, seed, obs).Some?
    ensures CombinationResult(sim, comb, repeat, seed, obs).value.areaDistance == 0.0
    ensures CombinationResult(sim, comb, repeat, seed, obs).value.compactnessDistance == 0.0
  {
    RepeatsContents(sim, comb, seed, obs, repeat);
    var ds := Repeats(sim, comb, seed, obs, repeat).value;
    forall i | 0 <= i < repeat
      ensures ds[i].area == 0.0 && ds[i].compactness == 0.0
    {
      ScoreZeroIffReproduced(obs, sim(comb, TrialSeed(seed, i)));
    }
    ZeroSum(AreaOf(ds));
    ZeroSum(CompactnessOf(ds));
  }

  lemma {:induction false} ZeroSum(xs: seq<real>)
    requires forall i :: 0 <= i < |xs| ==> xs[i] == 0.0
    ensures Sum(xs) == 0.0
  {
    if |xs| > 0 {
      ZeroSum(xs[..|xs| - 1]);
    }
  }

  /** Once a repeat has failed, running more repeats cannot revive the combination. */
  lemma {:induction false} FailureIsFinal(sim: Simulator, comb: Combination, seed: int, obs: Observed, n: nat, m: nat)
    requires Conforms(sim, obs)
    requires n <= m
    requires Repeats(sim, comb, seed, obs, n).None?
    ensures Repeats(sim, comb, seed, obs, m).None?
    decreases m - n
  {
    if n < m {
      FailureIsFinal(sim, comb, seed, obs, n + 1, m);
    }
  }

  lemma AppendDistances(ds: seq<Distances>, d: Distances)
    ensures AreaOf(ds + [d]) == AreaOf(ds) + [d.area]
    ensures CompactnessOf(ds + [d]) == CompactnessOf(ds) + [d.compactness]
    ensures Sum(AreaOf(ds + [d])) == Sum(AreaOf(ds)) + d.area
    ensures Sum(CompactnessOf(ds + [d])) == Sum(CompactnessOf(ds)) + d.compactness
  {
    assert AreaOf(ds + [d]) == AreaOf(ds) + [d.area];
    assert CompactnessOf(ds + [d]) == CompactnessOf(ds) + [d.compactness];
    SumAppend(AreaOf(ds), d.area);
    SumAppend(CompactnessOf(ds), d.compactness);
  }

  /** A failed repeat i fails every run of more than i repeats. */
  lemma FailedRepeat(sim: Simulator, comb: Combination, seed: int, obs: Observed, i: nat, m: nat)
    requires Conforms(sim, obs)
    requires i < m && sim(comb, TrialSeed(seed, i)).SimulationFailed?
    ensures Repeats(sim, comb, seed, obs, m).None?
  {
    assert Repeats(sim, comb, seed, obs, i + 1).None?;
    FailureIsFinal(sim, comb, seed, obs, i + 1, m);
  }

  /** A successful repeat i appends its score to the distances of the first i repeats. */
  lemma SucceededRepeat(sim: Simulator, comb: Combination, seed: int, obs: Observed, i: nat, ds: seq<Distances>, out: SimOutcome)
    requires Conforms(sim, obs)
    requires Repeats(sim, comb, seed, obs, i) == Some(ds)
    requires out == sim(comb, TrialSeed(seed, i)) && out.Simulated?
    ensures Repeats(sim, comb, seed, obs, i + 1) == Some(ds + [Score(obs, out)])
    ensures Sum(AreaOf(ds + [Score(obs, out)])) == Sum(AreaOf(ds)) + Score(obs, out).area
    ensures Sum(CompactnessOf(ds + [Score(obs, out)])) == Sum(CompactnessOf(ds)) + Score(obs, out).compactness
  {
    AppendDistances(ds, Score(obs, out));
  }

  /**
   * Runs the repeats of one combination in seed order and stops at the first
   * failed simulation. `seedsRun` lists the seeds handed to the simulation: the
   * first k of seed * 10000 + 0, + 1, ..., where every repeat before the last one run
   * succeeded and the last one failed unless all `repeat` repeats ran.
   */
  method RunOneCombination(sim: Simulator, comb: Combination, repeat: int, seed: int, obs: Observed)
    returns (result: Option<TrialResult>, seedsRun: seq<int>)
    requires repeat != 0
    requires Conforms(sim, obs)
    ensures result == CombinationResult(sim, comb, repeat, seed, obs)
    ensures |seedsRun| <= RepeatCount(repeat)
    ensures forall i :: 0 <= i < |seedsRun| ==> seedsRun[i] == TrialSeed(seed, i)
    ensures forall i :: 0 <= i < |seedsRun| - 1 ==> sim(comb, seedsRun[i]).Simulated?
    ensures result.Some? ==> |seedsRun| == RepeatCount(repeat)
    ensures result.None? ==> |seedsRun| > 0 && sim(comb, seedsRun[|seedsRun| - 1]).SimulationFailed?
  {
    var offset := seed * SeedStride;
    var sumArea := 0.0;
    var sumCompactness := 0.0;
    ghost var ds: seq<Distances> := [];
    seedsRun := [];
    var i := 0;
    while i < repeat
      invariant 0 <= i <= RepeatCount(repeat)
      invariant Repeats(sim, comb, seed, obs, i) == Some(ds)
      invariant sumArea == Sum(AreaOf(ds)) && sumCompactness == Sum(CompactnessOf(ds))
      invariant |seedsRun| == i
      invariant forall j :: 0 <= j < i ==> seedsRun[j] == TrialSeed(seed, j)
      invariant forall j :: 0 <= j < i ==> sim(comb, seedsRun[j]).Simulated?
    {
      var trialSeed := offset + i;
      assert trialSeed == TrialSeed(seed, i);
      seedsRun := seedsRun + [trialSeed];
      var out := sim(comb, trialSeed);
      if out.SimulationFailed? {
        FailedRepeat(sim, comb, seed, obs, i, RepeatCount(repeat));
        result := None;
        return;
      }
      var d := Score(obs, out);
      SucceededRepeat(sim, comb, seed, obs, i, ds, out);
      ds := ds + [d];
      sumArea := sumArea + d.area;
      sumCompactness := sumCompactness + d.compactness;
      i := i + 1;
    }
    result := Some(TrialResult(comb, sumArea / repeat as real, sumCompactness / repeat as real));
  }
}
